=== FILE: README.md ===
# Games launcher: a verified model of its core

The repository is a small collection of pygame games with two ways in: a
desktop launcher (`game_launcher.py`) that lists the game directories four to
a page and runs a chosen game under a generated supervisor program
(`_wrapper_<entry point>`, of which `Aeroblasters/_wrapper_main.py` is one
instance), and a web front end (`FRONTEND/server.py` and `FRONTEND/script.js`)
that shows the games six to a page and can ask the launcher, through
`/launch-game`, to start one on the server's machine.

This project models the deterministic logic under the rendering and the
process plumbing, as pure Dafny functions over an abstract directory listing,
plus one imperative method for `launch_game`:

| module | file | what it models |
|---|---|---|
| `Base` | base.dfy | `Option`, min/max, filter and map over sequences |
| `Text` | text.dfy | ASCII `str.lower`, `str.replace` of one character, `str.strip`, Python string order |
| `Paths` | paths.dfy | POSIX `os.path.join`, `basename`, `dirname` |
| `Listing` | listing.dfy | a directory entry (name, is-directory, the files it holds, its README lines); "first existing of" searches; the README first-line description |
| `Discovery` | discovery.dfy | `Game.__init__`, `find_games`, the `--launch` match |
| `Paging` | paging.dfy | page counts and page windows, shared by both front ends |
| `Menu` | menu.dfy | the launcher's menu loop: keys, page buttons, selection, and the `--launch` start-up |
| `Wrapper` | wrapper.dfy | the supervisor's tick loop and its final `terminate()` |
| `Launch` | launch.dfy | `create_game_wrapper`'s path and `launch_game`'s try/except/finally, with injected failures |
| `Server` | server.dfy | id normalisation, directory resolution, `generate_games_data` records, the `/launch-game` branch |
| `Arguments` | args.dfy | the launcher's `argparse` command line `--launch <word>` |
| `Bridge` | bridge.dfy | a `/launch-game` request followed through to the launcher it spawns |
| `Frontend` | frontend.dfy | script.js: the grid's pages and buttons, the details modal, the player, the key handler |

The file system is a listing: a sequence of entries in `os.listdir` order,
each a name, whether it is a directory, the set of file names it holds and,
when it has a `README.md`, its lines. Existence checks become set membership.
Processes are replaced by their observable answers: the wrapper's `poll()`
is an input of each tick, and `launch_game`'s six failing steps (chdir,
opening the wrapper file, writing it, `Popen`, `wait`, `remove`) are flags.

## Model

| member | source | states |
|---|---|---|
| Text.LowerChar | game_launcher.py:295 | lower-casing a character leaves no upper-case letter and changes exactly the letters A-Z, each by 32 |
| Text.Lower | game_launcher.py:295 | `str.lower` keeps the length and lower-cases each character in place |
| Text.LowerIdempotent | FRONTEND/server.py:114 | lower-casing twice is lower-casing once |
| Text.LowerFixesExactly | FRONTEND/server.py:114 | a string is its own lower case exactly when it holds no upper-case letter |
| Text.Replace | FRONTEND/server.py:28 | the replacement keeps the length and changes exactly the occurrences of the one character |
| Text.Strip | game_launcher.py:121 | the stripped line is a slice of the input with only whitespace cut off before and after it, has no whitespace at either end, and is empty exactly when the line was all whitespace |
| Text.BelowIrreflexive | game_launcher.py:128 | no name sorts strictly before itself |
| Text.BelowTotal | game_launcher.py:128 | any two names are equal or one sorts before the other |
| Text.BelowTransitive | game_launcher.py:128 | the name order is transitive |
| Text.AtMostTransitive | game_launcher.py:128 | the non-strict name order is transitive |
| Text.BelowAsymmetric | game_launcher.py:128 | a name that sorts before another is not also after or equal to it |
| Paths.Basename | game_launcher.py:225 | the base name has no slash, is a suffix of the path and is preceded by a slash when shorter than it |
| Paths.Dirname | game_launcher.py:205 | the directory part is empty exactly when the path has no slash; otherwise it is the prefix up to and including the last slash, with trailing slashes removed unless that prefix is all slashes, and never longer than that prefix |
| Paths.Join | game_launcher.py:207 | the joined path is at least as long as the name and at most the directory, one separator and the name |
| Paths.JoinShape | game_launcher.py:207 | `os.path.join(a, b)` ends in `b`; an absolute `b` replaces `a`; otherwise it starts with `a`, and is `a + b` when `a` is empty or ends in a separator and `a + "/" + b` otherwise |
| Paths.JoinBasename | game_launcher.py:207 | joining a directory and a slash-free name gives back that name as the base name |
| Paths.JoinDirname | game_launcher.py:205-207 | the wrapper path built from a path's directory has that same directory |
| Listing.FirstExisting | game_launcher.py:72-81 | the result is the earliest candidate that exists, and there is none exactly when no candidate exists |
| Listing.Description | game_launcher.py:114-121 | with a README holding at least one line the description is that first line stripped; without a README or with an empty one it is empty |
| Discovery.ImageName | game_launcher.py:72-81 | the image is the first existing of app.png, app.gif, screenshot.png, preview.png, app.jpg, and none exactly when none exists |
| Discovery.MainName | game_launcher.py:83-89 | the entry point is the first existing of main.py, game.py, run.py, and stays main.py when none exists |
| Discovery.NewGame | game_launcher.py:68-89 | a game keeps its name, directory and description and gets the image and entry point by those priority orders |
| Discovery.MainFileBasename | game_launcher.py:225 | the base name `launch_game` takes of the main file is the chosen entry-point name |
| Discovery.InsertByName | game_launcher.py:128 | inserting into a name-sorted list keeps it sorted and is a permutation of the list plus the game |
| Discovery.SortByName | game_launcher.py:128 | the sorted list is ordered by name and is a permutation of the input |
| Discovery.FindGames | game_launcher.py:103-129 | the result is sorted by name and holds, with multiplicity, the games built from the kept entries |
| Discovery.SortedPairwise | game_launcher.py:128 | in the sorted list every earlier name is at most every later one |
| Discovery.FindGamesMembers | game_launcher.py:106-125 | a game is found exactly when it is built from a listed directory, other than `__pycache__`, that holds main.py or game.py |
| Discovery.CollectNamesDistinct | game_launcher.py:106-125 | a listing that never repeats a name yields games with pairwise distinct names |
| Discovery.FindGamesEachOnce | game_launcher.py:125 | since `os.listdir` never repeats a name, every found game appears exactly once in the result |
| Discovery.KeptDirHasEntryPoint | game_launcher.py:109-112 | a kept directory's chosen entry point exists in it and is main.py or game.py |
| Discovery.FoundGamesAreRunnable | game_launcher.py:83-89 | every found game's entry point is a file of its listed directory, never the run.py fallback |
| Discovery.LaunchTarget | game_launcher.py:294-300 | the launched game is the first in list order whose name equals the argument ignoring case, and none exactly when no name matches |
| Discovery.LaunchPicksLeastName | game_launcher.py:293-298 | over the sorted list the launched game's name is at most that of every other matching game |
| Paging.PageCount | FRONTEND/script.js:66 | the page count is the ceiling of items over page size: enough pages, no empty last page, zero exactly for no items |
| Paging.WindowInRange | game_launcher.py:425-426 | an existing page shows between one and a page size of items, all indices in range |
| Paging.IndexOnItsPage | game_launcher.py:435-436 | every item is shown on page index / size, and that page exists |
| Paging.PageOfIndexUnique | game_launcher.py:425-426 | an item is shown on no other page |
| Menu.MaxPagesIsCeiling | game_launcher.py:306 | `(n-1)//4 + 1` under floor division is the ceiling of n/4, so 0 exactly for no games |
| Menu.RightArrowMatchesNext | game_launcher.py:471 | the right-arrow guard and the Next-button guard are the same condition |
| Menu.VisibleSlice | game_launcher.py:420-426 | a page in range shows one to four games, all real indices |
| Menu.MaxPages | game_launcher.py:306 | `(len(games) - 1) // 4 + 1` is 0 for no games and otherwise the least page count with every game on a page |
| Menu.HandleEvents | game_launcher.py:335-347 | the events never select a game or replace a selection, and never restart a stopped menu; Menu.HandleEventsValid adds that the page stays in range |
| Menu.HandleEventsValid | game_launcher.py:335-350 | the key loop keeps the page in range and never selects a game or restarts a stopped menu |
| Menu.Frame | game_launcher.py:335-478 | a frame launches a game only after a click on Play, and it is the game selected before the frame; without a click the frame is just its events; Menu.FramePreservesValid adds the page and selection bounds |
| Menu.FramePreservesValid | game_launcher.py:352-478 | every frame keeps 0 <= page <= max(max_pages-1, 0) and a real selection; a launch is of the selected game after a Play click |
| Menu.ArrowKeys | game_launcher.py:344-347 | left moves back one page only above page 0; right moves on one only while another page holds games |
| Arguments.ParseLaunchOption | game_launcher.py:274-277 | `--launch <word>` is a usage error exactly when argparse reads the word as an option: never for an empty word, "-" or a word not starting with '-', always for a "--" word without a space; otherwise the word is the launch argument |
| Arguments.NegativeNumbersAreArguments | game_launcher.py:276-277 | a word shaped like a negative number, even with a final newline, is taken as the `--launch` argument |
| Menu.Start | game_launcher.py:291-306 | `--launch` starts at most one found game, one whose name matches ignoring case, none exactly when none matches, and the menu then starts on page 0 either way |
| Wrapper.HandleEvents | Aeroblasters/_wrapper_main.py:42-50 | QUIT or F10 clears `running` and nothing else does; F1 resets the timer to exactly 180 and sets `message_shown`; without F1 both are unchanged |
| Wrapper.Tick | Aeroblasters/_wrapper_main.py:41-63 | after a tick the loop runs on exactly when it ran, saw no QUIT or F10 and the child is alive; the timer stays non-negative and counts down by one from its value or from 180 after F1; the overlay is drawn exactly when F1 was not pressed, the timer is positive and the message not yet shown (so never on an F1 tick, unlike Wrapper.TickAsIntended) |
| Wrapper.AfterEvents | Aeroblasters/_wrapper_main.py:52-61 | the overlay is drawn exactly when the timer is positive and the message is not yet marked shown |
| Wrapper.HelpKeyNeverDraws | Aeroblasters/_wrapper_main.py:48-61 | a tick with F1 never draws the overlay, from any state |
| Wrapper.TickAsIntended | Aeroblasters/_wrapper_main.py:56-61 | with F1 clearing the flag, a tick draws exactly when F1 was pressed or the start-up message is still due |
| Wrapper.RunLoop | Aeroblasters/_wrapper_main.py:41-63 | the loop runs no more ticks than it is given, keeps the timer non-negative, and keeps it within 0..180 once it starts there |
| Wrapper.DrawnAtMostOnce | Aeroblasters/_wrapper_main.py:57-60 | the overlay is drawn at most once a session, never once marked shown, and from the start exactly when a first tick without F1 happens |
| Wrapper.NoDrawOnceShown | Aeroblasters/_wrapper_main.py:58-60 | once the message is marked shown no later tick draws |
| Wrapper.TimerCountsDown | Aeroblasters/_wrapper_main.py:57-61 | without F1 the timer after the loop is max(timer - ticks, 0) |
| Wrapper.KeepsRunning | Aeroblasters/_wrapper_main.py:39-54 | with a live child and no QUIT or F10 the loop runs every tick it is given and is still running |
| Wrapper.MessageTimerExpires | Aeroblasters/_wrapper_main.py:32 | 180 quiet ticks without F1 leave the loop running with the timer at 0 |
| Wrapper.StopsAtFirstStopTick | Aeroblasters/_wrapper_main.py:43-54 | the first tick with QUIT, F10 or an exited child is the last tick |
| Wrapper.Supervise | Aeroblasters/_wrapper_main.py:65-67 | `terminate()` is sent exactly when the loop ended and the final poll finds the child alive; the overlay is drawn at most once |
| Launch.WrapperPath | game_launcher.py:204-207 | the wrapper has base name "_wrapper_" + the game file's base name, the game file's directory, and never overwrites the game file |
| Launch.WrapperOfBareName | game_launcher.py:225-226 | for a bare file name the wrapper path is "_wrapper_" + that name |
| Launch.WrapperNextToEntryPoint | game_launcher.py:222-226 | the wrapper is written into the game's directory beside its entry point |
| Launch.LaunchGame | game_launcher.py:209-255 | the working directory is restored on every path; `open` creating the wrapper and writing its text are separate steps; the wrapper is removed exactly when spawn and wait completed and removal did not fail, so once created, a failing write, spawn or wait leaves it; no other file changes |
| Launch.WrapperLifecycle | game_launcher.py:225-242 | inside the game directory: the wrapper exists afterwards exactly when it was created and not removed (or existed already and was never created); removal needs a completed wait; no other file changes |
| Launch.LaunchGameCleaned | game_launcher.py:238-249 | with removal in the finally clause, a created wrapper is gone afterwards on every path, failing write included, unless removal itself fails; without one the path is as before; the directory is restored and no other file changes |
| Server.Normalize | FRONTEND/server.py:114 | the id has the name's length, no upper-case letter and no space: each character is the lower-cased one, a space becoming '-' |
| Server.NormalizeIdempotent | FRONTEND/server.py:205 | normalising an id changes nothing, and a name is its own id exactly when it has no upper-case letter and no space |
| Server.AssetDirNameVersusId | FRONTEND/server.py:28 | the asset directory name lower-cases to the id and equals it exactly when the game name has no upper-case letter |
| Server.Resolve | FRONTEND/server.py:204-207 | the result is the name of the first listed directory whose id is the requested one, and nothing exactly when there is none |
| Server.RecordOf | FRONTEND/server.py:113-150 | a record has id = normalised title, title = directory name, play URL game-players/<id>.html, the README line or the default description, the first existing thumbnail, screenshots [thumbnail] or [], and webReady iff the build's index.html exists |
| Server.GenerateGamesData | FRONTEND/server.py:102-152 | at most one record per listed item, and none exactly when no listed item passes the filter; Server.GamesDataMembers and Server.GamesDataInListingOrder characterise the records |
| Server.GamesDataMembers | FRONTEND/server.py:104-111 | there is a record exactly for each listed directory, other than FRONTEND and `__pycache__`, that holds main.py or game.py |
| Server.GamesDataInListingOrder | FRONTEND/server.py:152 | records come out in listing order |
| Server.GamesDataWellFormed | FRONTEND/server.py:137-145 | every emitted record is well formed |
| Server.GameParam | FRONTEND/server.py:197-200 | the game parameter is a non-empty `game` value with no non-empty `game` value before it, and absent exactly when there is none |
| Server.GameParamAppend | FRONTEND/server.py:197-200 | parameters after the first usable `game` value never change it; with none, it is taken from the parameters that follow |
| Server.LaunchRoute | FRONTEND/server.py:195-223 | at most one process is spawned, exactly when the id resolves and Popen does not raise, with argv [python, game_launcher.py, --launch, dir]; the 200 redirect to /game-launched?game=<id> is sent exactly when a process was spawned and sending did not raise; a failure while sending leaves the process running and serves the error page; an unknown id or a raising Popen gives the 404 page and spawns nothing; a request without the parameter falls through to static files |
| Server.LaunchSpawnsOnlyListedDirs | FRONTEND/server.py:204-219 | the redirect is only sent for a spawned process, a spawned process without the redirect means sending it raised, and the directory passed is a listed directory with the requested id |
| Bridge.LaunchArgPicksEntry | game_launcher.py:292-300 | with case-distinct names, `--launch <listed name>` starts the game built from that entry if it is a game directory and nothing otherwise |
| Bridge.LaunchRequestStartsResolvedGame | FRONTEND/server.py:209-213 | with case-distinct names a spawning request passes the resolved directory after `--launch`; the launcher exits with a usage error exactly when argparse reads that name as an option, and otherwise starts the game of the resolved directory, then the menu |
| Bridge.LaunchStartsLeastMatch | game_launcher.py:293-298 | among several case-insensitive matches the launcher starts the one with the least name |
| Bridge.CaseCollisionStartsOtherGame | FRONTEND/server.py:204-207 | with directories "pong" then "Pong", the server resolves "pong" but the launcher starts "Pong" |
| Frontend.ModalPicture | FRONTEND/script.js:81-87 | the modal image is the thumbnail when it is non-empty, else the first screenshot when it is non-empty, else hidden |
| Frontend.GeneratedRecordPicture | FRONTEND/script.js:81 | for the server's records the image is the thumbnail, or hidden without one |
| Frontend.OpenDetails | FRONTEND/script.js:74-91 | opening details selects the game, shows its picture, opens the modal and locks scrolling, leaving page and player alone |
| Frontend.CloseDetails | FRONTEND/script.js:94-97 | closing hides the modal and unlocks scrolling and changes nothing else |
| Frontend.Play | FRONTEND/script.js:100-111 | Play does nothing without a selected game; otherwise it hides the modal, shows the player and loads the game's play URL |
| Frontend.Exit | FRONTEND/script.js:114-118 | Exit hides the player, blanks the frame, unlocks scrolling and changes nothing else |
| Frontend.Step | FRONTEND/script.js:121-171 | only the page buttons and arrow keys change the page, and only a card click changes the selected game |
| Frontend.InitialValid | FRONTEND/script.js:2 | the page starts on page 1, valid, with Prev disabled and Next disabled exactly when all games fit on one page |
| Frontend.StepValid | FRONTEND/script.js:121-171 | every event keeps 1 <= page <= max(totalPages, 1), a selection among the games, and a blank frame exactly while the player is hidden |
| Frontend.Run | FRONTEND/script.js:121-171 | a sequence without card clicks keeps the current game, and one without page buttons or arrow keys keeps the page; Frontend.RunValid adds that the state stays valid |
| Frontend.RunValid | FRONTEND/script.js:150-171 | any sequence of events keeps the state valid |
| Frontend.PageButtonsMatchDisabled | FRONTEND/script.js:69-70 | Prev does nothing exactly when it is disabled (page 1) and Next exactly when it is disabled (page >= totalPages); enabled, each moves one page |
| Frontend.VisibleCards | FRONTEND/script.js:33-36 | a reachable page shows one to six cards, all real games, and none when there are no games |
| Frontend.EscapeClosesOne | FRONTEND/script.js:151-156 | Escape closes the player if it is showing, else the modal if open, never both |
| Frontend.ArrowsMatchButtons | FRONTEND/script.js:157-170 | the arrow keys act as the page buttons while neither modal nor player shows, and do nothing otherwise |

## Left out

- Paths.Join: modelled with POSIX `posixpath` rules; on Windows, where the repository's files were written, `ntpath` also treats `\` and drive letters as separators.
- Text.Lower: ASCII lower-casing only; Python's `str.lower` also folds non-ASCII letters.
- Text.Strip: strips the ASCII whitespace characters Python's `str.strip` strips (space, 9-13, 28-31), not the other Unicode spaces.
- Listing.Description: a README that cannot be opened or decoded (the bare `except`) is modelled as no README.
- Launch.LaunchGame: the final `os.chdir(original_dir)` and `os.getcwd()` are taken to succeed, and the pygame re-initialisation and `print` calls in the `finally` clause are not modelled.
- Launch.LaunchGameCleaned: states what the corrected lifecycle guarantees about files and the directory, not the error report.
- Launch.LaunchGame: only exceptions the `except Exception` clause catches are modelled. A `KeyboardInterrupt` during `process.wait()` skips that clause, but the `finally` clause ends in `return screen` (game_launcher.py:255), which discards it, so `launch_game` returns normally, the menu goes on, and the wrapper stays on disk as with a failing wait.
- Arguments.ParseLaunchOption: follows the `argparse` of Python 3.12.13 (other releases differ: 3.13 changed the negative-number pattern, and earlier 3.12 releases did not split a single-dash word at '=' before prefix matching); `\d` is taken as the ASCII digits, where Python's pattern also accepts other Unicode digits; only the command line `--launch <word>` is modelled, as the server builds it.
- Wrapper.Supervise: the child's own run, the 60-ticks-a-second pacing (`clock.tick`) and `pygame.quit()` are not modelled; a session is a finite sequence of tick inputs plus the final `poll()`.
- The wrapper does not wait for the terminated child and never kills it; this follows the code, which sends a single `terminate()`, rather than a grace window and forced kill.
- The text of the generated wrapper program (game_launcher.py:133-202) is not modelled, only its loop; the game name and file name are substituted into Python source unescaped (game_launcher.py:145, 168), so a name holding a quote breaks or alters the generated program.
- Menu: drawing, fonts, images, the gradient, and button hit-testing are not modelled; a frame takes the button under the mouse as an input.
- Menu.Start: the listing read by the `--launch` branch and by the menu is the same; a directory that changes between the two `find_games` calls is not modelled.
- Frontend: DOM construction, card HTML, page-indicator text and body overflow styles other than the locked/unlocked flag are not modelled; the initial visibility of the modal and player (set by index.html, which is not part of this model) is taken as hidden.
- Server: the HTML bodies of every page, CORS headers, `do_OPTIONS`, the `/game-launched`, `/game_launcher` and `/play-desktop-game` routes (their directory lookup is the same `Resolve`), the `TCPServer` setup, the asset copying and player-page generation (`setup_asset_directories`, `create_game_players`) apart from the asset-directory naming rule, and writing games-data.js are not modelled.
- Server.GameParam: URL decoding by `urlparse`/`parse_qs` is abstracted; the query is the decoded list of name/value pairs.
- The stray `matplotlib` import in server.py has no behaviour to model.

## Findings

| source | as written | input that shows it | evidently intended | confidence | as-written member | corrected member |
|---|---|---|---|---|---|---|
| Aeroblasters/_wrapper_main.py:48-61 | F1 sets `message_shown = True` and resets the timer, and the overlay is drawn only while `message_shown` is false | any tick in which F1 is pressed: the timer is reset to 180 but nothing is drawn | F1 shows the help overlay again, as the "show help" comment and the "Show return message on startup or when F1 is pressed" comment say | high, not executed | Wrapper.HelpKeyNeverDraws | Wrapper.TickAsIntended |
| game_launcher.py:210-242 | the wrapper file is removed inside the `try` block after `process.wait()`, so only the success path removes it | `f.write`, `Popen` or `wait` raising after `open` in `create_game_wrapper` created `_wrapper_main.py`: the file stays in the game directory (the leftover Aeroblasters/_wrapper_main.py, which holds the complete wrapper text, is consistent with a failing spawn or wait, or with an interrupted or killed launcher) | the wrapper is removed on every path once created, in the `finally` clause | medium, not executed | Launch.LaunchGame | Launch.LaunchGameCleaned |

=== FILE: args.dfy ===
/** The launcher's command line: `argparse` with one option, `--launch`,
    which takes one argument. Only the command line `--launch <word>` is
    modelled, as the web server builds it, with the rules of the `argparse`
    of Python 3.12.13 for deciding whether the word after `--launch` is its argument
    or another option. */
module Arguments {

  import opened Base
  import opened Text

  predicate IsDigit(c: char)
  {
    '0' <= c <= '9'
  }

  predicate AllDigits(s: string)
  {
    forall i :: 0 <= i < |s| ==> IsDigit(s[i])
  }

  /** A whole word of the form `-\d+` or `-\d*\.\d+`. */
  predicate NumberShape(w: string)
  {
    |w| >= 2 && w[0] == '-' &&
    (AllDigits(w[1..]) ||
     exists k :: 1 <= k < |w| - 1 && w[k] == '.' && AllDigits(w[1..k]) && AllDigits(w[k + 1..]))
  }

  /** The parser's negative-number pattern `^-\d+$|^-\d*\.\d+$`; Python's `$`
      also matches just before a final newline. */
  predicate LooksNegativeNumber(w: string)
  {
    NumberShape(w) || (|w| > 0 && w[|w| - 1] == '\n' && NumberShape(w[..|w| - 1]))
  }

  /** The part of `w` before its first '=', or all of `w` when it has none. */
  function BeforeEquals(w: string): (p: string)
    ensures |p| <= |w| && w[..|p|] == p
    ensures '=' !in p
    ensures |p| < |w| ==> w[|p|] == '='
  {
    if |w| == 0 || w[0] == '=' then ""
    else
      var rest := BeforeEquals(w[1..]);
      assert w[..|rest| + 1] == [w[0]] + w[1..][..|rest|];
      [w[0]] + rest
  }

  /** The word names one of the parser's options "-h", "--help" and
      "--launch", or is an ambiguous abbreviation, which is a usage error
      too. The part before any '=' is matched as a prefix of the option
      strings: "--" and "-" (a word starting "-=") are prefixes of several
      and are rejected as ambiguous. A single-dash word whose first two
      characters are "-h" is read as "-h" with an attached value. */
  predicate NamesOption(w: string)
  {
    |w| >= 2 && w[0] == '-' &&
    if w[1] == '-' then StartsWith("--help", BeforeEquals(w)) || StartsWith("--launch", BeforeEquals(w))
    else w[..2] == "-h" || w[1] == '='
  }

  /** `_parse_optional`: a word that starts with '-' and is longer than one
      character is read as an option when it names one, and otherwise
      unless it looks like a negative number (the parser has no option that
      does) or contains a space. */
  predicate TakenAsOption(w: string)
  {
    |w| >= 2 && w[0] == '-' && (NamesOption(w) || (!LooksNegativeNumber(w) && ' ' !in w))
  }

  /** `args` after `parse_args`, or the usage error with exit status 2. */
  datatype Args = Args(launch: Option<string>) | UsageError

  /** `parser.parse_args()` on the command line `--launch <value>`. When the
      value is read as an option, `--launch` has no argument, and argparse
      prints "expected one argument" and exits with status 2 before
      `main` gets to `find_games`. */
  function ParseLaunchOption(value: string): (a: Args)
    ensures a.Args? ==> a.launch == Some(value)
    ensures a.UsageError? ==> |value| >= 2 && value[0] == '-'
    ensures value == "" || value[0] != '-' || value == "-" ==> a == Args(Some(value))
    ensures StartsWith(value, "--") && ' ' !in value ==> a.UsageError?
    ensures a.UsageError? <==> TakenAsOption(value)
  {
    DoubleDashIsNoNumber(value);
    if TakenAsOption(value) then UsageError else Args(Some(value))
  }

  /** The character after the sign of a number is a digit or the point. */
  lemma NumberSecondChar(v: string)
    requires NumberShape(v)
    ensures IsDigit(v[1]) || v[1] == '.'
  {
    if AllDigits(v[1..]) {
      assert v[1..][0] == v[1];
    } else {
      var k :| 1 <= k < |v| - 1 && v[k] == '.' && AllDigits(v[1..k]) && AllDigits(v[k + 1..]);
      if k > 1 {
        assert v[1..k][0] == v[1];
      }
    }
  }

  /** Whether a word looks like a number is decided by its second
      character being a digit or the point, final newline or not. */
  lemma NegativeNumberSecondChar(w: string)
    requires LooksNegativeNumber(w)
    ensures |w| >= 2 && w[0] == '-' && (IsDigit(w[1]) || w[1] == '.')
  {
    if NumberShape(w) {
      NumberSecondChar(w);
    } else {
      var v := w[..|w| - 1];
      NumberSecondChar(v);
      assert v[0] == w[0] && v[1] == w[1];
    }
  }

  lemma DoubleDashIsNoNumber(w: string)
    ensures StartsWith(w, "--") ==> !LooksNegativeNumber(w)
  {
    if StartsWith(w, "--") && LooksNegativeNumber(w) {
      NegativeNumberSecondChar(w);
    }
  }

  /** A word that looks like a negative number, a final newline included,
      is always taken as the argument of `--launch`. */
  lemma NegativeNumbersAreArguments(w: string)
    requires LooksNegativeNumber(w)
    ensures ParseLaunchOption(w) == Args(Some(w))
  {
    NegativeNumberSecondChar(w);
    assert w[..2][1] == w[1];
  }
}

=== FILE: base.dfy ===
/** Small shared vocabulary: the absent-or-present value (Python's `None`
    and JavaScript's `null` both become `None`), and the order-preserving
    filter and map that list comprehensions over a directory listing are. */
module Base {

  datatype Option<+T> = None | Some(value: T)

  function Min(a: int, b: int): int { if a <= b then a else b }

  function Max(a: int, b: int): int { if a >= b then a else b }

  /** `[x for x in xs if keep(x)]`. */
  function Filter<T(!new)>(keep: T -> bool, xs: seq<T>): (ys: seq<T>)
    ensures |ys| <= |xs|
    ensures forall x :: x in ys <==> x in xs && keep(x)
    decreases |xs|
  {
    if |xs| == 0 then []
    else
      var front := Filter(keep, xs[..|xs| - 1]);
      var last := xs[|xs| - 1];
      assert xs == xs[..|xs| - 1] + [last];
      if keep(last) then front + [last] else front
  }

  /** `[f(x) for x in xs]`. */
  function MapSeq<A, B>(f: A -> B, xs: seq<A>): (ys: seq<B>)
    ensures |ys| == |xs|
    ensures forall i :: 0 <= i < |xs| ==> ys[i] == f(xs[i])
  {
    seq(|xs|, i requires 0 <= i < |xs| => f(xs[i]))
  }

  lemma MapSeqMembers<A, B>(f: A -> B, xs: seq<A>, y: B)
    ensures y in MapSeq(f, xs) <==> exists x :: x in xs && y == f(x)
  {
    if y in MapSeq(f, xs) {
      var i :| 0 <= i < |xs| && MapSeq(f, xs)[i] == y;
      assert xs[i] in xs;
    }
  }

  /** Filtering then mapping a longer listing extends the result at the end:
      the output keeps the input's order. */
  lemma FilterMapAppend<A(!new), B>(keep: A -> bool, f: A -> B, xs: seq<A>, x: A)
    ensures MapSeq(f, Filter(keep, xs + [x])) ==
      MapSeq(f, Filter(keep, xs)) + (if keep(x) then [f(x)] else [])
  {
    assert (xs + [x])[..|xs|] == xs;
  }

  predicate NoDuplicates<T(==)>(s: seq<T>)
  {
    forall i, j :: 0 <= i < j < |s| ==> s[i] != s[j]
  }

  /** A sequence without duplicates holds each of its elements once. */
  lemma {:induction false} NoDuplicatesOnce<T>(s: seq<T>, x: T)
    requires NoDuplicates(s)
    ensures x in s ==> multiset(s)[x] == 1
    decreases |s|
  {
    if |s| > 0 {
      var init := s[..|s| - 1];
      assert s == init + [s[|s| - 1]];
      NoDuplicatesOnce(init, x);
    }
  }
}

=== FILE: bridge.dfy ===
/** The web server's `/launch-game` route hands a directory name to the
    launcher's `--launch` option; both list the same games directory. This
    module follows a request through both programs. */
module Bridge {

  import opened Base
  import opened Text
  import opened Listing
  import opened Discovery
  import opened Server
  import opened Menu
  import opened Arguments

  /** No two listed names differ only in letter case, as on a
      case-insensitive filesystem. */
  predicate CaseDistinct(listing: seq<Entry>)
  {
    forall i, j :: 0 <= i < |listing| && 0 <= j < |listing| && i != j ==>
      Lower(listing[i].name) != Lower(listing[j].name)
  }

  /** Given the name of a listed entry, `--launch` starts the game built from
      that very entry when it is a game directory, and otherwise starts
      nothing and goes on to the menu. */
  lemma LaunchArgPicksEntry(root: string, listing: seq<Entry>, k: nat)
    requires CaseDistinct(listing)
    requires k < |listing| && listing[k].name != ""
    ensures Start(root, listing, Some(listing[k].name)).launched ==
      (if IsGameDir(listing[k]) then Some(GameOf(root, listing[k])) else None)
  {
    var s := Start(root, listing, Some(listing[k].name));
    if IsGameDir(listing[k]) {
      FindGamesMembers(root, listing, GameOf(root, listing[k]));
    }
    if s.launched.Some? {
      var g := s.launched.value;
      FindGamesMembers(root, listing, g);
      var e :| e in listing && IsGameDir(e) && g == GameOf(root, e);
      var i :| 0 <= i < |listing| && listing[i] == e;
      assert Lower(listing[i].name) == Lower(listing[k].name);
    }
  }

  /** A `/launch-game` request that spawns a process runs the launcher with
      `--launch` and the resolved directory. Unless argparse reads that name
      as an option (and the launcher exits with a usage error), the launcher
      starts the game built from the resolved directory, if that directory
      is a game directory; the menu always follows. */
  lemma LaunchRequestStartsResolvedGame(path: string, query: seq<(string, string)>, listing: seq<Entry>,
                                        python: string, gamesDir: string,
                                        spawnError: Option<string>, replyError: Option<string>,
                                        root: string)
    requires CaseDistinct(listing)
    ensures var r := LaunchRoute(path, query, listing, python, gamesDir, spawnError, replyError);
      r.spawned != [] ==>
        r.spawned[0][2] == "--launch" &&
        exists k :: (0 <= k < |listing| && listing[k].name == r.spawned[0][3] &&
                     Normalize(listing[k].name) == GameParam(query).value &&
                     (ParseLaunchOption(r.spawned[0][3]).UsageError? <==> TakenAsOption(listing[k].name)) &&
                     (ParseLaunchOption(r.spawned[0][3]).Args? ==>
                        Start(root, listing, ParseLaunchOption(r.spawned[0][3]).launch) ==
                          Startup(if IsGameDir(listing[k]) then Some(GameOf(root, listing[k])) else None, InitialMenu)))
  {
    var r := LaunchRoute(path, query, listing, python, gamesDir, spawnError, replyError);
    if r.spawned != [] {
      var id := GameParam(query).value;
      var k :| 0 <= k < |listing| && listing[k].name == Resolve(listing, id).value && Matches(listing[k], id) &&
        forall j :: 0 <= j < k ==> !Matches(listing[j], id);
      var name := listing[k].name;
      assert r.spawned[0][3] == name;
      assert |Normalize(name)| == |name|;
      var a := ParseLaunchOption(name);
      if a.Args? {
        LaunchArgPicksEntry(root, listing, k);
        assert Start(root, listing, a.launch) ==
          Startup(if IsGameDir(listing[k]) then Some(GameOf(root, listing[k])) else None, InitialMenu);
      }
    }
  }

  /** When several game directories match a `--launch` name case-insensitively,
      the launcher starts the one whose name is least in string order. */
  lemma LaunchStartsLeastMatch(root: string, listing: seq<Entry>, arg: string, e: Entry)
    requires e in listing && IsGameDir(e) && Lower(e.name) == Lower(arg)
    requires forall x :: x in listing && IsGameDir(x) && Lower(x.name) == Lower(arg) && x != e ==> Below(e.name, x.name)
    ensures LaunchTarget(FindGames(root, listing), arg) == Some(GameOf(root, e))
  {
    var games := FindGames(root, listing);
    FindGamesMembers(root, listing, GameOf(root, e));
    LaunchPicksLeastName(games, arg, GameOf(root, e));
    var g := LaunchTarget(games, arg).value;
    FindGamesMembers(root, listing, g);
    var x :| x in listing && IsGameDir(x) && g == GameOf(root, x);
    BelowAsymmetric(e.name, x.name);
    assert x == e;
  }

  /** Without case-distinct names the two programs can disagree: the server
      resolves "pong" to the directory "pong" listed first, but the launcher
      starts "Pong", which sorts before it. */
  lemma CaseCollisionStartsOtherGame(root: string, pong: Entry, upper: Entry)
    requires pong.name == "pong" && upper.name == "Pong"
    requires IsGameDir(pong) && IsGameDir(upper)
    ensures Resolve([pong, upper], "pong") == Some("pong")
    ensures Start(root, [pong, upper], Some("pong")).launched == Some(GameOf(root, upper))
  {
    var listing := [pong, upper];
    assert Normalize("pong") == "pong";
    assert Matches(listing[0], "pong");
    assert Lower("Pong") == "pong" && Lower("pong") == "pong";
    assert Below("Pong", "pong");
    LaunchStartsLeastMatch(root, listing, "pong", upper);
    assert Start(root, listing, Some("pong")).launched == LaunchTarget(FindGames(root, listing), "pong");
  }
}

=== FILE: discovery.dfy ===
/** Game discovery in the desktop launcher: `Game.__init__` (which picture and
    which entry point a game directory gets), `find_games` (which directories
    are games, sorted by name) and the `--launch` match in `main`. */
module Discovery {

  import opened Base
  import opened Text
  import opened Paths
  import opened Listing

  /** Picture names in the order they are tried. */
  const ImageCandidates: seq<string> := ["app.png", "app.gif", "screenshot.png", "preview.png", "app.jpg"]

  /** Entry-point names in the order they are tried. */
  const EntryCandidates: seq<string> := ["main.py", "game.py", "run.py"]

  /** A `Game` object. The source keeps `image_path` and `main_file` as
      full paths; here they are kept as the names inside `directory`, and
      `ImagePath` and `MainFile` join them back on. */
  datatype Game = Game(
    name: string,
    directory: string,
    description: string,
    imageName: Option<string>,
    mainName: string)
  {
    function ImagePath(): Option<string>
    {
      match imageName
      case Some(c) => Some(Join(directory, c))
      case None => None
    }

    function MainFile(): string
    {
      Join(directory, mainName)
    }
  }

  /** The picture `Game.__init__` settles on: "app.png" when it exists, else
      the first existing alternative, else none. */
  function ImageName(files: set<string>): (r: Option<string>)
    ensures r.Some? ==> FirstIn(ImageCandidates, files, r.value)
    ensures r.None? <==> NoneIn(ImageCandidates, files)
  {
    var alternatives := ["app.gif", "screenshot.png", "preview.png", "app.jpg"];
    assert ImageCandidates == ["app.png"] + alternatives;
    if "app.png" in files then
      assert ImageCandidates[0] == "app.png";
      Some("app.png")
    else
      var r := FirstExisting(alternatives, files);
      assert r.Some? ==> FirstIn(ImageCandidates, files, r.value) by {
        if r.Some? {
          var k :| 0 <= k < |alternatives| && alternatives[k] == r.value && r.value in files &&
            forall j :: 0 <= j < k ==> alternatives[j] !in files;
          assert ImageCandidates[k + 1] == r.value;
        }
      }
      r
  }

  /** The entry point `Game.__init__` settles on: "main.py" when it exists,
      else the first existing of "game.py" and "run.py", else "main.py" even
      though it does not exist. */
  function MainName(files: set<string>): (m: string)
    ensures m in EntryCandidates
    ensures m in files ==> FirstIn(EntryCandidates, files, m)
    ensures m !in files <==> NoneIn(EntryCandidates, files)
    ensures m !in files ==> m == "main.py"
  {
    var alternatives := ["game.py", "run.py"];
    assert EntryCandidates == ["main.py"] + alternatives;
    if "main.py" in files then "main.py"
    else
      match FirstExisting(alternatives, files)
      case Some(alt) =>
        assert FirstIn(EntryCandidates, files, alt) by {
          var k :| 0 <= k < |alternatives| && alternatives[k] == alt && alt in files &&
            forall j :: 0 <= j < k ==> alternatives[j] !in files;
          assert EntryCandidates[k + 1] == alt;
        }
        alt
      case None => "main.py"
  }

  /** `os.path.basename(game.main_file)` gives back the entry-point name. */
  lemma MainFileBasename(g: Game)
    requires NoSlash(g.mainName)
    ensures Basename(g.MainFile()) == g.mainName
  {
    JoinBasename(g.directory, g.mainName);
  }

  /** `Game(name, directory, description)`: the picture and the entry point
      are looked up in the directory whose existing names are `files`. */
  function NewGame(name: string, directory: string, description: string, files: set<string>): (g: Game)
    ensures g.name == name && g.directory == directory && g.description == description
    ensures g.imageName.Some? ==> FirstIn(ImageCandidates, files, g.imageName.value)
    ensures g.imageName.None? <==> NoneIn(ImageCandidates, files)
    ensures g.mainName in EntryCandidates
    ensures g.mainName in files ==> FirstIn(EntryCandidates, files, g.mainName)
    ensures g.mainName !in files ==> g.mainName == "main.py" && NoneIn(EntryCandidates, files)
  {
    Game(name, directory, description, ImageName(files), MainName(files))
  }

  /** The test `find_games` applies to each listed item. */
  predicate IsGameDir(e: Entry)
  {
    e.isDir && e.name != "__pycache__" && ("main.py" in e.files || "game.py" in e.files)
  }

  function GameOf(root: string, e: Entry): Game
  {
    NewGame(e.name, Join(root, e.name), Description(e), e.files)
  }

  /** The games `find_games` appends, in listing order, before sorting. */
  function Collect(root: string, listing: seq<Entry>): seq<Game>
  {
    MapSeq(e => GameOf(root, e), Filter(IsGameDir, listing))
  }

  ghost predicate NameSorted(gs: seq<Game>)
  {
    forall i :: 0 < i < |gs| ==> AtMost(gs[i - 1].name, gs[i].name)
  }

  /** One step of the stable sort by name: `g` goes after every game whose
      name is not greater than its own. */
  function InsertByName(g: Game, gs: seq<Game>): (r: seq<Game>)
    requires NameSorted(gs)
    ensures NameSorted(r)
    ensures multiset(r) == multiset(gs) + multiset{g}
    ensures |r| > 0 && (r[0] == g || (|gs| > 0 && r[0] == gs[0]))
  {
    if |gs| == 0 then [g]
    else if Below(g.name, gs[0].name) then [g] + gs
    else
      var tail := InsertByName(g, gs[1..]);
      BelowTotal(g.name, gs[0].name);
      assert gs == [gs[0]] + gs[1..];
      [gs[0]] + tail
  }

  /** `games.sort(key=lambda g: g.name)`. */
  function SortByName(gs: seq<Game>): (r: seq<Game>)
    ensures NameSorted(r)
    ensures multiset(r) == multiset(gs)
  {
    if |gs| == 0 then []
    else
      assert gs == gs[..|gs| - 1] + [gs[|gs| - 1]];
      InsertByName(gs[|gs| - 1], SortByName(gs[..|gs| - 1]))
  }

  /** `find_games()` over the listing of the games root `root`. */
  function FindGames(root: string, listing: seq<Entry>): (gs: seq<Game>)
    ensures NameSorted(gs)
    ensures multiset(gs) == multiset(Collect(root, listing))
  {
    SortByName(Collect(root, listing))
  }

  /** Sortedness of adjacent pairs extends to every pair. */
  lemma {:induction false} SortedPairwise(gs: seq<Game>, i: int, j: int)
    requires NameSorted(gs)
    requires 0 <= i <= j < |gs|
    ensures AtMost(gs[i].name, gs[j].name)
    decreases j - i
  {
    if i < j {
      SortedPairwise(gs, i, j - 1);
      AtMostTransitive(gs[i].name, gs[j - 1].name, gs[j].name);
    }
  }

  /** `g` is built from some listed entry that passes the test. */
  ghost predicate BuiltFromListing(root: string, listing: seq<Entry>, g: Game)
  {
    exists e :: e in listing && IsGameDir(e) && g == GameOf(root, e)
  }

  /** A game is found exactly when some listed entry passes the test and the
      game is the one built from that entry. */
  lemma FindGamesMembers(root: string, listing: seq<Entry>, g: Game)
    ensures g in FindGames(root, listing) <==> BuiltFromListing(root, listing, g)
  {
    MapSeqMembers(e => GameOf(root, e), Filter(IsGameDir, listing), g);
    assert g in FindGames(root, listing) <==> g in multiset(FindGames(root, listing));
    assert g in Collect(root, listing) <==> g in multiset(Collect(root, listing));
  }

  /** Games collected from a listing without repeated names have distinct
      names. */
  lemma {:induction false} CollectNamesDistinct(root: string, listing: seq<Entry>)
    requires DistinctNames(listing)
    ensures NoDuplicates(Collect(root, listing))
    ensures forall i, j :: 0 <= i < j < |Collect(root, listing)| ==>
      Collect(root, listing)[i].name != Collect(root, listing)[j].name
    decreases |listing|
  {
    if |listing| > 0 {
      var init := listing[..|listing| - 1];
      var last := listing[|listing| - 1];
      assert listing == init + [last];
      assert DistinctNames(init);
      CollectNamesDistinct(root, init);
      var before := Collect(root, init);
      var tail: seq<Game> := if IsGameDir(last) then [GameOf(root, last)] else [];
      FilterMapAppend(IsGameDir, e => GameOf(root, e), init, last);
      assert Collect(root, listing) == before + tail;
      forall g | g in before ensures g.name != last.name {
        var k := CollectedFromEntry(root, init, g);
        assert listing[k] == init[k];
      }
      assert forall g :: g in tail ==> g.name == last.name;
      NamesDistinctAppend(before, tail);
    }
  }

  /** The listed entry a collected game was built from. */
  lemma CollectedFromEntry(root: string, listing: seq<Entry>, g: Game) returns (k: nat)
    requires g in Collect(root, listing)
    ensures k < |listing| && listing[k].name == g.name
  {
    MapSeqMembers(e => GameOf(root, e), Filter(IsGameDir, listing), g);
    var e :| e in Filter(IsGameDir, listing) && g == GameOf(root, e);
    k :| 0 <= k < |listing| && listing[k] == e;
  }

  lemma NamesDistinctAppend(a: seq<Game>, b: seq<Game>)
    requires forall i, j :: 0 <= i < j < |a| ==> a[i].name != a[j].name
    requires |b| <= 1
    requires forall g, h :: g in a && h in b ==> g.name != h.name
    ensures NoDuplicates(a + b)
    ensures forall i, j :: 0 <= i < j < |a + b| ==> (a + b)[i].name != (a + b)[j].name
  {
  }

  /** Each found game appears once. */
  lemma FindGamesEachOnce(root: string, listing: seq<Entry>, g: Game)
    requires DistinctNames(listing)
    requires g in FindGames(root, listing)
    ensures multiset(FindGames(root, listing))[g] == 1
  {
    CollectNamesDistinct(root, listing);
    assert g in multiset(Collect(root, listing));
    NoDuplicatesOnce(Collect(root, listing), g);
  }

  /** Every found game's entry point exists in its directory, and it is
      always "main.py" or "game.py": the "run.py" fallback never applies to a
      directory that `find_games` keeps. */
  lemma FoundGamesAreRunnable(root: string, listing: seq<Entry>, g: Game)
    requires g in FindGames(root, listing)
    ensures exists e :: e in listing && e.name == g.name && g.mainName in e.files
    ensures g.mainName in ["main.py", "game.py"]
  {
    FindGamesMembers(root, listing, g);
    var e :| e in listing && IsGameDir(e) && g == GameOf(root, e);
    KeptDirHasEntryPoint(e);
  }

  lemma KeptDirHasEntryPoint(e: Entry)
    requires IsGameDir(e)
    ensures MainName(e.files) in e.files
    ensures MainName(e.files) in ["main.py", "game.py"]
  {
    assert EntryCandidates[0] == "main.py" && EntryCandidates[1] == "game.py";
  }

  /** The `--launch` loop: the first game in order whose lower-cased name
      equals the lower-cased argument. */
  function LaunchTarget(games: seq<Game>, arg: string): (r: Option<Game>)
    ensures r.Some? ==> exists k :: (0 <= k < |games| && games[k] == r.value &&
                                     Lower(games[k].name) == Lower(arg) &&
                                     forall j :: 0 <= j < k ==> Lower(games[j].name) != Lower(arg))
    ensures r.None? <==> forall j :: 0 <= j < |games| ==> Lower(games[j].name) != Lower(arg)
  {
    if |games| == 0 then None
    else if Lower(games[0].name) == Lower(arg) then Some(games[0])
    else
      var r := LaunchTarget(games[1..], arg);
      assert forall j :: 1 <= j < |games| ==> games[j] == games[1..][j - 1];
      assert r.Some? ==> exists k :: (0 <= k < |games| && games[k] == r.value &&
                                      Lower(games[k].name) == Lower(arg) &&
                                      forall j :: 0 <= j < k ==> Lower(games[j].name) != Lower(arg)) by {
        if r.Some? {
          var k :| 0 <= k < |games[1..]| && games[1..][k] == r.value &&
            Lower(games[1..][k].name) == Lower(arg) &&
            forall j :: 0 <= j < k ==> Lower(games[1..][j].name) != Lower(arg);
          assert games[k + 1] == r.value;
        }
      }
      r
  }

  /** Over the sorted list, `--launch` picks the least name, in string order,
      among the games whose names match case-insensitively. */
  lemma LaunchPicksLeastName(games: seq<Game>, arg: string, g: Game)
    requires NameSorted(games)
    requires g in games && Lower(g.name) == Lower(arg)
    ensures LaunchTarget(games, arg).Some?
    ensures AtMost(LaunchTarget(games, arg).value.name, g.name)
  {
    var j :| 0 <= j < |games| && games[j] == g;
    var r := LaunchTarget(games, arg);
    var k :| 0 <= k < |games| && games[k] == r.value && Lower(games[k].name) == Lower(arg) &&
      forall i :: 0 <= i < k ==> Lower(games[i].name) != Lower(arg);
    SortedPairwise(games, k, j);
  }
}

=== FILE: frontend.dfy ===
/** The web page's script: the six-card grid with its page buttons, the
    details modal, the in-page player and the keyboard handler. The games
    array is fixed for the life of the page; the state below stands for the
    DOM properties the script reads and writes. */
module Frontend {

  import opened Base
  import opened Paging
  import opened Server

  const GamesPerPage: nat := 6

  /** `Math.ceil(games.length / gamesPerPage)`. */
  function TotalPages(n: nat): nat
  {
    PageCount(n, GamesPerPage)
  }

  /** The source shown by the modal's image element, or none when the
      element is hidden. */
  datatype Picture = Shown(url: string) | Hidden

  /** `page` is `currentPage`; `modalOpen` is `gameModal.style.display ===
      'block'`; `playerVisible` is the absence of the `hidden` class on the
      player; `current` is `currentGame`; `iframeSrc` is the player frame's
      source; `picture` is the modal image; `scrollLocked` is
      `document.body.style.overflow === 'hidden'`. */
  datatype Ui = Ui(
    page: int,
    modalOpen: bool,
    playerVisible: bool,
    current: Option<GameRecord>,
    iframeSrc: string,
    picture: Picture,
    scrollLocked: bool)

  datatype Key = Escape | ArrowLeft | ArrowRight | OtherKey

  /** The listeners `setupEventListeners` installs; `CardClick(i)` is a click
      on the card of `games[i]`. */
  datatype Event =
    | PrevClick
    | NextClick
    | CardClick(index: int)
    | CloseClick
    | BackClick
    | BackdropClick
    | PlayClick
    | ExitClick
    | KeyDown(key: Key)

  /** The page after loading: first page, modal and player hidden. */
  const InitialUi := Ui(1, false, false, None, "", Hidden, false)

  /** The first index `displayGames` shows on the one-based page `page`. */
  function StartIndex(page: int): int
  {
    WindowStart(page - 1, GamesPerPage)
  }

  /** One past the last index shown. */
  function EndIndex(page: int, n: nat): int
  {
    WindowEnd(page - 1, GamesPerPage, n)
  }

  /** What `updatePagination` sets `prevPageBtn.disabled` to. */
  predicate PrevDisabled(page: int) { page == 1 }

  /** What `updatePagination` sets `nextPageBtn.disabled` to. */
  predicate NextDisabled(n: nat, page: int) { page >= TotalPages(n) }

  /** The state the script keeps: the page is between 1 and the number of
      pages (1 when there are no games), the selected game is one of the
      games, and the player frame is blank exactly when the player is
      hidden, otherwise it shows one of the games' player pages. */
  ghost predicate Valid(games: seq<GameRecord>, u: Ui)
  {
    && 1 <= u.page <= Max(TotalPages(|games|), 1)
    && (u.current.Some? ==> u.current.value in games)
    && (!u.playerVisible ==> u.iframeSrc == "")
    && (u.playerVisible ==> exists g :: g in games && u.iframeSrc == g.playUrl)
  }

  /** The image `openGameDetails` shows: the thumbnail, else the first
      screenshot, else none; an empty string is falsy and counts as none. */
  function ModalPicture(g: GameRecord): (p: Picture)
    ensures p.Shown? ==> p.url != ""
    ensures p.Shown? <==> (g.thumbnail.Some? && g.thumbnail.value != "") || (|g.screenshots| > 0 && g.screenshots[0] != "")
    ensures g.thumbnail.Some? && g.thumbnail.value != "" ==> p == Shown(g.thumbnail.value)
    ensures !(g.thumbnail.Some? && g.thumbnail.value != "") && |g.screenshots| > 0 && g.screenshots[0] != "" ==>
      p == Shown(g.screenshots[0])
  {
    if g.thumbnail.Some? && g.thumbnail.value != "" then Shown(g.thumbnail.value)
    else if |g.screenshots| > 0 && g.screenshots[0] != "" then Shown(g.screenshots[0])
    else Hidden
  }

  /** For the records the server writes, the screenshot fallback never
      decides anything: the image is the thumbnail, or hidden without one. */
  lemma GeneratedRecordPicture(g: GameRecord)
    requires WellFormedRecord(g)
    ensures ModalPicture(g) == (if g.thumbnail.Some? then Shown(g.thumbnail.value) else Hidden)
  {
  }

  /** `openGameDetails(game)`. */
  function OpenDetails(u: Ui, g: GameRecord): (r: Ui)
    ensures r.modalOpen && r.scrollLocked && r.current == Some(g) && r.picture == ModalPicture(g)
    ensures r.page == u.page && r.playerVisible == u.playerVisible && r.iframeSrc == u.iframeSrc
  {
    u.(current := Some(g), picture := ModalPicture(g), modalOpen := true, scrollLocked := true)
  }

  /** `closeGameDetails()`. */
  function CloseDetails(u: Ui): (r: Ui)
    ensures !r.modalOpen && !r.scrollLocked
    ensures r.page == u.page && r.playerVisible == u.playerVisible && r.current == u.current
    ensures r.iframeSrc == u.iframeSrc && r.picture == u.picture
  {
    u.(modalOpen := false, scrollLocked := false)
  }

  /** `playGame()`: nothing without a selected game. */
  function Play(u: Ui): (r: Ui)
    ensures u.current.None? ==> r == u
    ensures u.current.Some? ==> (!r.modalOpen && r.playerVisible && r.scrollLocked &&
                                 r.iframeSrc == u.current.value.playUrl &&
                                 r.page == u.page && r.current == u.current && r.picture == u.picture)
  {
    match u.current
    case None => u
    case Some(g) => u.(modalOpen := false, playerVisible := true, iframeSrc := g.playUrl, scrollLocked := true)
  }

  /** `exitGame()`. */
  function Exit(u: Ui): (r: Ui)
    ensures !r.playerVisible && r.iframeSrc == "" && !r.scrollLocked
    ensures r.page == u.page && r.modalOpen == u.modalOpen && r.current == u.current && r.picture == u.picture
  {
    u.(playerVisible := false, iframeSrc := "", scrollLocked := false)
  }

  /** The previous-page handler, shared by the button and the left arrow. */
  function PrevPage(u: Ui): Ui
  {
    if u.page > 1 then u.(page := u.page - 1) else u
  }

  /** The next-page handler, shared by the button and the right arrow. */
  function NextPage(n: nat, u: Ui): Ui
  {
    if u.page < TotalPages(n) then u.(page := u.page + 1) else u
  }

  /** One event, dispatched to its listener. */
  function Step(games: seq<GameRecord>, u: Ui, e: Event): (r: Ui)
    ensures r.page != u.page ==> e in {PrevClick, NextClick, KeyDown(ArrowLeft), KeyDown(ArrowRight)}
    ensures r.current != u.current ==> e.CardClick?
  {
    match e
    case PrevClick => PrevPage(u)
    case NextClick => NextPage(|games|, u)
    case CardClick(i) =>
      if StartIndex(u.page) <= i < EndIndex(u.page, |games|) && 0 <= i then OpenDetails(u, games[i]) else u
    case CloseClick => CloseDetails(u)
    case BackClick => CloseDetails(u)
    case BackdropClick => CloseDetails(u)
    case PlayClick => Play(u)
    case ExitClick => Exit(u)
    case KeyDown(Escape) =>
      if u.playerVisible then Exit(u)
      else if u.modalOpen then CloseDetails(u)
      else u
    case KeyDown(ArrowLeft) =>
      if !u.modalOpen && !u.playerVisible then PrevPage(u) else u
    case KeyDown(ArrowRight) =>
      if !u.modalOpen && !u.playerVisible then NextPage(|games|, u) else u
    case KeyDown(OtherKey) => u
  }

  /** Events in order. */
  function Run(games: seq<GameRecord>, u: Ui, es: seq<Event>): (r: Ui)
    ensures (forall i :: 0 <= i < |es| ==> !es[i].CardClick?) ==> r.current == u.current
    ensures (forall i :: 0 <= i < |es| ==> es[i] !in {PrevClick, NextClick, KeyDown(ArrowLeft), KeyDown(ArrowRight)}) ==>
      r.page == u.page
    decreases |es|
  {
    if |es| == 0 then u else Run(games, Step(games, u, es[0]), es[1..])
  }

  lemma InitialValid(games: seq<GameRecord>)
    ensures Valid(games, InitialUi)
    ensures PrevDisabled(InitialUi.page)
    ensures NextDisabled(|games|, InitialUi.page) <==> |games| <= GamesPerPage
  {
  }

  /** Every event keeps the state valid. */
  lemma StepValid(games: seq<GameRecord>, u: Ui, e: Event)
    requires Valid(games, u)
    ensures Valid(games, Step(games, u, e))
  {
    var r := Step(games, u, e);
    if e.CardClick? && StartIndex(u.page) <= e.index < EndIndex(u.page, |games|) && 0 <= e.index {
      assert r.current == Some(games[e.index]);
    }
    if e == PlayClick && u.current.Some? {
      assert r.iframeSrc == u.current.value.playUrl;
    }
  }

  /** ... and so does any run of events. */
  lemma {:induction false} RunValid(games: seq<GameRecord>, u: Ui, es: seq<Event>)
    requires Valid(games, u)
    ensures Valid(games, Run(games, u, es))
    decreases |es|
  {
    if |es| > 0 {
      StepValid(games, u, es[0]);
      RunValid(games, Step(games, u, es[0]), es[1..]);
    }
  }

  /** A disabled page button does nothing, and an enabled one moves one page. */
  lemma PageButtonsMatchDisabled(games: seq<GameRecord>, u: Ui)
    requires Valid(games, u)
    ensures PrevDisabled(u.page) <==> Step(games, u, PrevClick) == u
    ensures !PrevDisabled(u.page) ==> Step(games, u, PrevClick).page == u.page - 1
    ensures NextDisabled(|games|, u.page) <==> Step(games, u, NextClick) == u
    ensures !NextDisabled(|games|, u.page) ==> Step(games, u, NextClick).page == u.page + 1
  {
  }

  /** Every page the buttons can reach shows between one and six cards, all
      indices in range; with no games the single page shows none. */
  lemma VisibleCards(games: seq<GameRecord>, u: Ui)
    requires Valid(games, u)
    ensures |games| > 0 ==> 0 <= StartIndex(u.page) < EndIndex(u.page, |games|) <= |games|
    ensures EndIndex(u.page, |games|) - StartIndex(u.page) <= GamesPerPage
    ensures |games| == 0 ==> EndIndex(u.page, |games|) == 0
  {
    if |games| > 0 {
      WindowInRange(|games|, GamesPerPage, u.page - 1);
    }
  }

  /** Escape closes the player if it is showing, else the modal if it is
      open; it never closes both. */
  lemma EscapeClosesOne(games: seq<GameRecord>, u: Ui)
    ensures var r := Step(games, u, KeyDown(Escape));
      && (u.playerVisible ==> r == Exit(u) && r.modalOpen == u.modalOpen)
      && (!u.playerVisible && u.modalOpen ==> r == CloseDetails(u))
      && (!u.playerVisible && !u.modalOpen ==> r == u)
      && !(u.playerVisible && !r.playerVisible && u.modalOpen && !r.modalOpen)
  {
  }

  /** The arrow keys act as the page buttons while neither the modal nor the
      player is showing, and do nothing otherwise. */
  lemma ArrowsMatchButtons(games: seq<GameRecord>, u: Ui)
    ensures !u.modalOpen && !u.playerVisible ==>
      Step(games, u, KeyDown(ArrowLeft)) == Step(games, u, PrevClick) &&
      Step(games, u, KeyDown(ArrowRight)) == Step(games, u, NextClick)
    ensures u.modalOpen || u.playerVisible ==>
      Step(games, u, KeyDown(ArrowLeft)) == u && Step(games, u, KeyDown(ArrowRight)) == u
  {
  }
}

=== FILE: launch.dfy ===
/** `create_game_wrapper` (where the wrapper is written) and `launch_game`
    (change into the game's directory, write the wrapper, run it, wait for
    it, remove it, and always change back). The file system is the current
    directory plus the set of paths that exist; each step that can raise is
    given an injected failure. */
module Launch {

  import opened Base
  import opened Paths
  import opened Discovery

  /** The path `create_game_wrapper(game_path, ...)` writes to and returns:
      the game file's directory joined with "_wrapper_" + its basename. */
  function WrapperPath(gamePath: string): (w: string)
    ensures Basename(w) == "_wrapper_" + Basename(gamePath)
    ensures Dirname(w) == Dirname(gamePath)
    ensures w != gamePath
  {
    var name := "_wrapper_" + Basename(gamePath);
    assert NoSlash(name) by {
      assert forall i :: 9 <= i < |name| ==> name[i] == Basename(gamePath)[i - 9];
    }
    JoinBasename(Dirname(gamePath), name);
    JoinDirname(gamePath, name);
    Join(Dirname(gamePath), name)
  }

  /** `launch_game` passes a bare file name, so the wrapper path is relative
      to the game's directory. */
  lemma WrapperOfBareName(gameFile: string)
    requires NoSlash(gameFile)
    ensures WrapperPath(gameFile) == "_wrapper_" + gameFile
  {
    assert LastSlash(gameFile) == -1;
    assert Dirname(gameFile) == "";
  }

  /** For a game whose entry point is a plain name (every found game's is),
      the wrapper sits next to it as "_wrapper_" + that name; for
      Aeroblasters this is `_wrapper_main.py`. */
  lemma WrapperNextToEntryPoint(cwd: string, g: Game)
    requires NoSlash(g.mainName)
    ensures WrapperFile(cwd, g) == Join(Join(cwd, g.directory), "_wrapper_" + g.mainName)
  {
    MainFileBasename(g);
    WrapperOfBareName(g.mainName);
  }

  datatype FileSystem = FileSystem(cwd: string, files: set<string>)

  /** Which step raises: `os.chdir(game.directory)`, the `open` that
      creates the wrapper, the `f.write` into the file just created,
      `subprocess.Popen`, `process.wait()`, and the inner `os.remove`. */
  datatype Faults = Faults(chdir: bool, open: bool, write: bool, spawn: bool, wait: bool, remove: bool)

  datatype Step = ChangeDir | OpenWrapper | WriteWrapper | Spawn | Wait

  /** What one call did: whether the wrapper file was created, its text
      written, the wrapper spawned, waited for and removed, and the step
      whose exception the `except` clause caught. */
  datatype Report = Report(created: bool, written: bool, spawned: bool, waited: bool, removed: bool, error: Option<Step>)

  /** Where the wrapper lands for `game` when launched from `cwd`. */
  function WrapperFile(cwd: string, game: Game): string
  {
    Join(Join(cwd, game.directory), WrapperPath(Basename(game.MainFile())))
  }

  /** `launch_game(game, screen)`. The working directory is restored on every
      path; the wrapper is removed only after it was spawned and waited for,
      so once `open` has created it, a failing write, spawn or wait leaves it
      on disk; no other path changes. */
  method LaunchGame(fs: FileSystem, game: Game, faults: Faults) returns (fs': FileSystem, report: Report)
    ensures fs'.cwd == fs.cwd
    ensures report.created <==> !faults.chdir && !faults.open
    ensures report.written <==> report.created && !faults.write
    ensures report.spawned ==> report.written
    ensures report.waited ==> report.spawned
    ensures report.removed <==> report.waited && !faults.remove
    ensures report.error.None? <==> report.waited
    ensures forall f :: f != WrapperFile(fs.cwd, game) ==> (f in fs'.files <==> f in fs.files)
    ensures WrapperFile(fs.cwd, game) in fs'.files <==>
      (report.created && !report.removed) || (!report.created && WrapperFile(fs.cwd, game) in fs.files)
    ensures report.created && !report.waited ==> WrapperFile(fs.cwd, game) in fs'.files
  {
    var originalDir := fs.cwd;
    var cwd := fs.cwd;
    var files := fs.files;
    // try
    if faults.chdir {
      report := Report(false, false, false, false, false, Some(ChangeDir));
    } else {
      cwd := Join(cwd, game.directory);
      // `create_game_wrapper(basename(main_file))`, relative to the new directory
      var target := WrapperFile(fs.cwd, game);
      files, report := WrapperLifecycle(files, target, faults);
    }
    // finally
    cwd := originalDir;
    fs' := FileSystem(cwd, files);
  }

  /** The rest of the `try` block once the directory is changed: create and
      write the wrapper at `target`, spawn it, wait for it, remove it. */
  method WrapperLifecycle(files: set<string>, target: string, faults: Faults)
    returns (files': set<string>, report: Report)
    ensures report.created <==> !faults.open
    ensures report.written <==> report.created && !faults.write
    ensures report.spawned ==> report.written
    ensures report.waited ==> report.spawned
    ensures report.removed <==> report.waited && !faults.remove
    ensures report.error.None? <==> report.waited
    ensures forall f :: f != target ==> (f in files' <==> f in files)
    ensures target in files' <==> (report.created && !report.removed) || (!report.created && target in files)
  {
    files' := files;
    report := Report(false, false, false, false, false, None);
    if faults.open {
      report := report.(error := Some(OpenWrapper));
    } else {
      // `open(wrapper_path, 'w')` has created the file before `f.write` runs
      files' := files' + {target};
      report := report.(created := true);
      if faults.write {
        report := report.(error := Some(WriteWrapper));
      } else {
        report := report.(written := true);
        if faults.spawn {
          report := report.(error := Some(Spawn));
        } else {
          report := report.(spawned := true);
          if faults.wait {
            report := report.(error := Some(Wait));
          } else {
            report := report.(waited := true);
            if !faults.remove {
              files' := files' - {target};
              report := report.(removed := true);
            }
          }
        }
      }
    }
  }

  /** Finding, corrected: the removal moved into the `finally` clause, so
      once created the wrapper is removed on every path, failing write,
      spawn and wait included, unless the removal itself fails. */
  method LaunchGameCleaned(fs: FileSystem, game: Game, faults: Faults) returns (fs': FileSystem, report: Report)
    ensures fs'.cwd == fs.cwd
    ensures report.created <==> !faults.chdir && !faults.open
    ensures report.written <==> report.created && !faults.write
    ensures report.removed <==> report.created && !faults.remove
    ensures forall f :: f != WrapperFile(fs.cwd, game) ==> (f in fs'.files <==> f in fs.files)
    ensures report.created ==> (WrapperFile(fs.cwd, game) in fs'.files <==> faults.remove)
    ensures !report.created ==> (WrapperFile(fs.cwd, game) in fs'.files <==> WrapperFile(fs.cwd, game) in fs.files)
  {
    var originalDir := fs.cwd;
    var cwd := fs.cwd;
    var files := fs.files;
    var target := WrapperFile(fs.cwd, game);
    report := Report(false, false, false, false, false, None);
    // try
    if faults.chdir {
      report := report.(error := Some(ChangeDir));
    } else if faults.open {
      report := report.(error := Some(OpenWrapper));
    } else {
      files := files + {target};
      report := report.(created := true);
      if faults.write {
        report := report.(error := Some(WriteWrapper));
      } else if faults.spawn {
        report := report.(written := true, error := Some(Spawn));
      } else if faults.wait {
        report := report.(written := true, spawned := true, error := Some(Wait));
      } else {
        report := report.(written := true, spawned := true, waited := true);
      }
    }
    // finally: remove the wrapper if it was created
    if report.created && !faults.remove {
      files := files - {target};
      report := report.(removed := true);
    }
    cwd := originalDir;
    fs' := FileSystem(cwd, files);
  }
}

=== FILE: listing.dfy ===
/** The games root as the programs see it through `os.listdir`,
    `os.path.isdir` and `os.path.exists`: an ordered listing of entries,
    each a name, whether it is a directory, the names that exist inside it,
    and the lines of its README.md as `readlines` would return them. */
module Listing {

  import opened Base
  import opened Text

  datatype Entry = Entry(
    name: string,
    isDir: bool,
    files: set<string>,
    /** `None` when opening or reading README.md raises. */
    readme: Option<seq<string>>)

  /** `os.listdir` never lists a name twice. */
  predicate DistinctNames(listing: seq<Entry>)
  {
    forall i, j :: 0 <= i < j < |listing| ==> listing[i].name != listing[j].name
  }

  /** `c` is the earliest of `candidates` that exists among `files`. */
  ghost predicate FirstIn(candidates: seq<string>, files: set<string>, c: string)
  {
    exists k :: 0 <= k < |candidates| && candidates[k] == c && c in files &&
      forall j :: 0 <= j < k ==> candidates[j] !in files
  }

  ghost predicate NoneIn(candidates: seq<string>, files: set<string>)
  {
    forall j :: 0 <= j < |candidates| ==> candidates[j] !in files
  }

  /** The `for name in [...]: if os.path.exists(...): ...; break` search. */
  function FirstExisting(candidates: seq<string>, files: set<string>): (r: Option<string>)
    ensures r.Some? ==> FirstIn(candidates, files, r.value)
    ensures r.None? <==> NoneIn(candidates, files)
  {
    if |candidates| == 0 then None
    else if candidates[0] in files then Some(candidates[0])
    else
      var rest := FirstExisting(candidates[1..], files);
      assert rest.Some? ==> FirstIn(candidates, files, rest.value) by {
        if rest.Some? {
          var k :| 0 <= k < |candidates[1..]| && candidates[1..][k] == rest.value && rest.value in files &&
            forall j :: 0 <= j < k ==> candidates[1..][j] !in files;
          assert candidates[k + 1] == rest.value;
          assert forall j :: 0 <= j < k + 1 ==> candidates[j] !in files by {
            forall j | 0 <= j < k + 1 ensures candidates[j] !in files {
              if j > 0 { assert candidates[j] == candidates[1..][j - 1]; }
            }
          }
        }
      }
      assert rest.None? ==> NoneIn(candidates, files) by {
        if rest.None? {
          forall j | 0 <= j < |candidates| ensures candidates[j] !in files {
            if j > 0 { assert candidates[j] == candidates[1..][j - 1]; }
          }
        }
      }
      rest
  }

  /** The description both programs read from a game directory: the first
      line of README.md with surrounding whitespace stripped, or "" when the
      file is missing, empty or unreadable. */
  function Description(e: Entry): (d: string)
    ensures d != "" ==> "README.md" in e.files && e.readme.Some? && |e.readme.value| > 0
    ensures |d| > 0 ==> !IsSpace(d[0]) && !IsSpace(d[|d| - 1])
    ensures "README.md" in e.files && e.readme.Some? && |e.readme.value| > 0 ==> d == Strip(e.readme.value[0])
    ensures !("README.md" in e.files && e.readme.Some? && |e.readme.value| > 0) ==> d == ""
  {
    if "README.md" in e.files && e.readme.Some? && |e.readme.value| > 0
    then Strip(e.readme.value[0])
    else ""
  }
}

=== FILE: menu.dfy ===
/** The interactive menu of the desktop launcher (`main`): the page counter,
    the selected game, the key handling and the navigation buttons, plus the
    `--launch` start-up that precedes the menu. Drawing is not modelled; a
    frame is the events pygame delivers plus which button the mouse is over. */
module Menu {

  import opened Base
  import opened Text
  import opened Paging
  import opened Discovery
  import opened Listing

  const GamesPerPage: nat := 4

  /** `max_pages = (len(games) - 1) // games_per_page + 1`. Python's `//`
      floors; for a positive divisor Dafny's `/` does the same, so 0 games
      give 0 pages. */
  function MaxPages(n: nat): (r: int)
    ensures n == 0 ==> r == 0
    ensures n > 0 ==> r >= 1 && (r - 1) * GamesPerPage < n <= r * GamesPerPage
  {
    (n - 1) / GamesPerPage + 1
  }

  /** `page` and `selected_game` (as an index into the sorted games), and
      `running`. */
  datatype Menu = Menu(page: int, selected: Option<nat>, running: bool)

  datatype Key = Escape | Left | Right | OtherKey

  datatype Event = QuitEvent | KeyDown(key: Key) | MouseDown(button: int) | OtherEvent

  /** The button under the mouse when the frame's click is checked. */
  datatype Target =
    | Nowhere
    | GameSlot(slot: nat)
    | BackNav
    | NextNav
    | ExitNav
    | PlayButton
    | DetailsBack

  /** A frame's new state and the game `launch_game` is called on, if any. */
  datatype FrameResult = FrameResult(menu: Menu, launch: Option<nat>)

  const InitialMenu := Menu(0, None, true)

  /** The menu's state invariant for `n` games. */
  predicate Valid(n: nat, m: Menu)
  {
    && 0 <= m.page <= Max(MaxPages(n) - 1, 0)
    && (m.selected.Some? ==> m.selected.value < n)
  }

  /** One event of the `for event in pygame.event.get()` loop. */
  function HandleEvent(n: nat, m: Menu, e: Event): Menu
  {
    match e
    case QuitEvent => m.(running := false)
    case KeyDown(Escape) =>
      if m.selected.Some? then m.(selected := None) else m.(running := false)
    case KeyDown(Left) => if m.page > 0 then m.(page := m.page - 1) else m
    case KeyDown(Right) => if m.page < MaxPages(n) - 1 then m.(page := m.page + 1) else m
    case _ => m
  }

  function HandleEvents(n: nat, m: Menu, es: seq<Event>): (r: Menu)
    ensures r.selected.Some? ==> r.selected == m.selected
    ensures !m.running ==> !r.running
    decreases |es|
  {
    if |es| == 0 then m else HandleEvents(n, HandleEvent(n, m, es[0]), es[1..])
  }

  predicate Clicked(es: seq<Event>)
  {
    exists i :: 0 <= i < |es| && es[i] == MouseDown(1)
  }

  /** One pass of the `while running` loop. */
  function Frame(n: nat, m: Menu, es: seq<Event>, hovered: Target): (r: FrameResult)
    ensures r.launch.Some? ==> r.launch == m.selected && Clicked(es) && hovered == PlayButton
    ensures !Clicked(es) ==> r == FrameResult(HandleEvents(n, m, es), None)
  {
    var m1 := HandleEvents(n, m, es);
    var click := Clicked(es);
    if m1.selected.Some? then
      var launch := if click && hovered == PlayButton then m1.selected else None;
      var selected := if click && hovered == DetailsBack then None else m1.selected;
      FrameResult(m1.(selected := selected), launch)
    else
      var start := WindowStart(m1.page, GamesPerPage);
      var end := WindowEnd(m1.page, GamesPerPage, n);
      var selected :=
        if click && hovered.GameSlot? && 0 <= start && start + hovered.slot < end
        then Some(start + hovered.slot) else None;
      var p1 := if m1.page > 0 && click && hovered == BackNav then m1.page - 1 else m1.page;
      var p2 := if (p1 + 1) * GamesPerPage < n && click && hovered == NextNav then p1 + 1 else p1;
      var running := if click && hovered == ExitNav then false else m1.running;
      FrameResult(Menu(p2, selected, running), None)
  }

  /** The page count is the ceiling of n / 4, so 0 exactly when there are no
      games. */
  lemma MaxPagesIsCeiling(n: nat)
    ensures MaxPages(n) == PageCount(n, GamesPerPage)
    ensures MaxPages(n) == 0 <==> n == 0
  {
  }

  /** The right-arrow guard and the guard that shows the Next button are the
      same condition. */
  lemma RightArrowMatchesNext(n: nat, page: int)
    ensures page < MaxPages(n) - 1 <==> (page + 1) * GamesPerPage < n
  {
  }

  /** A page in range shows between one and four games, all of them real. */
  lemma VisibleSlice(n: nat, page: int)
    requires 0 <= page < MaxPages(n)
    ensures 0 <= WindowStart(page, GamesPerPage) < WindowEnd(page, GamesPerPage, n) <= n
    ensures WindowEnd(page, GamesPerPage, n) - WindowStart(page, GamesPerPage) <= GamesPerPage
  {
    MaxPagesIsCeiling(n);
    WindowInRange(n, GamesPerPage, page);
  }

  /** Key handling keeps the page in range; only Escape with nothing selected
      and QUIT stop the menu. */
  lemma {:induction false} HandleEventsValid(n: nat, m: Menu, es: seq<Event>)
    requires Valid(n, m)
    ensures Valid(n, HandleEvents(n, m, es))
    ensures HandleEvents(n, m, es).selected.Some? ==> HandleEvents(n, m, es).selected == m.selected
    ensures !m.running ==> !HandleEvents(n, m, es).running
    decreases |es|
  {
    if |es| > 0 {
      HandleEventsValid(n, HandleEvent(n, m, es[0]), es[1..]);
    }
  }

  /** Every frame keeps 0 <= page <= max(max_pages - 1, 0) and a selection
      that names a real game; a launch is only ever of the selected game. */
  lemma FramePreservesValid(n: nat, m: Menu, es: seq<Event>, hovered: Target)
    requires Valid(n, m)
    ensures Valid(n, Frame(n, m, es, hovered).menu)
    ensures Frame(n, m, es, hovered).launch.Some? ==>
      Frame(n, m, es, hovered).launch == m.selected && Clicked(es) && hovered == PlayButton
  {
    HandleEventsValid(n, m, es);
    var m1 := HandleEvents(n, m, es);
    RightArrowMatchesNext(n, m1.page);
    var r := Frame(n, m, es, hovered);
    if m1.selected.None? && r.menu.selected.Some? {
      var start := WindowStart(m1.page, GamesPerPage);
      assert start + hovered.slot < WindowEnd(m1.page, GamesPerPage, n) <= n;
    }
  }

  /** The arrow keys: left only from a page above 0, right only below the
      last page, each by one. */
  lemma ArrowKeys(n: nat, m: Menu)
    ensures HandleEvent(n, m, KeyDown(Left)).page == (if m.page > 0 then m.page - 1 else m.page)
    ensures HandleEvent(n, m, KeyDown(Right)).page ==
      (if (m.page + 1) * GamesPerPage < n then m.page + 1 else m.page)
  {
    RightArrowMatchesNext(n, m.page);
  }

  /** What `main` does before the menu: with a non-empty `--launch` value the
      first game, in sorted order, whose name matches it ignoring case is
      launched; the menu then starts on page 0 with nothing selected whether
      or not a game was found. */
  datatype Startup = Startup(launched: Option<Game>, menu: Menu)

  function Start(root: string, listing: seq<Entry>, launchArg: Option<string>): (s: Startup)
    ensures s.menu == InitialMenu && Valid(|FindGames(root, listing)|, s.menu)
    ensures s.launched.Some? ==> (launchArg.Some? && launchArg.value != "" &&
                                  s.launched.value in FindGames(root, listing) &&
                                  Lower(s.launched.value.name) == Lower(launchArg.value))
    ensures launchArg.Some? && launchArg.value != "" ==>
      (s.launched.None? <==> forall g :: g in FindGames(root, listing) ==> Lower(g.name) != Lower(launchArg.value))
  {
    var launched :=
      if launchArg.Some? && launchArg.value != "" then LaunchTarget(FindGames(root, listing), launchArg.value)
      else None;
    Startup(launched, InitialMenu)
  }
}

=== FILE: paging.dfy ===
/** The page arithmetic shared by the desktop menu (four games a page,
    zero-based page numbers) and the web grid (six games a page, one-based
    page numbers): page counts and the window of indices a page shows. */
module Paging {

  import opened Base

  /** The number of pages needed for `n` items, `per` to a page: the
      ceiling of n / per, and 0 when there are no items. */
  function PageCount(n: nat, per: nat): (c: nat)
    requires per > 0
    ensures c * per >= n
    ensures c > 0 ==> (c - 1) * per < n
    ensures c == 0 <==> n == 0
  {
    (n + per - 1) / per
  }

  /** The first index shown on the zero-based page `p`. */
  function WindowStart(p: int, per: nat): int { p * per }

  /** One past the last index shown on the zero-based page `p`. */
  function WindowEnd(p: int, per: nat, n: nat): int { Min(p * per + per, n) }

  /** A page that exists shows between one and `per` items, all in range. */
  lemma WindowInRange(n: nat, per: nat, p: int)
    requires per > 0 && 0 <= p < PageCount(n, per)
    ensures 0 <= WindowStart(p, per) < WindowEnd(p, per, n) <= n
    ensures WindowEnd(p, per, n) - WindowStart(p, per) <= per
  {
    var c := PageCount(n, per);
    assert p <= c - 1;
    assert p * per <= (c - 1) * per by {
      MulMonotone(p, c - 1, per);
    }
  }

  /** Every item is shown on page i / per, and that page exists. */
  lemma IndexOnItsPage(n: nat, per: nat, i: int)
    requires per > 0 && 0 <= i < n
    ensures 0 <= i / per < PageCount(n, per)
    ensures WindowStart(i / per, per) <= i < WindowEnd(i / per, per, n)
  {
    var q := i / per;
    assert q * per <= i < q * per + per;
    var c := PageCount(n, per);
    if q >= c {
      MulMonotone(c, q, per);
    }
  }

  /** ... and on no other page. */
  lemma PageOfIndexUnique(n: nat, per: nat, i: int, p: int)
    requires per > 0
    requires WindowStart(p, per) <= i < WindowEnd(p, per, n)
    ensures p == i / per
  {
    var q := i / per;
    assert q * per <= i < q * per + per;
    if p < q {
      MulMonotone(p + 1, q, per);
    } else if p > q {
      MulMonotone(q + 1, p, per);
    }
  }

  lemma MulMonotone(a: int, b: int, k: nat)
    requires a <= b
    ensures a * k <= b * k
  {
  }
}

=== FILE: paths.dfy ===
/** The three `os.path` functions the launcher uses, with the POSIX meaning
    (`posixpath`): `join`, `basename` and `dirname`. */
module Paths {

  predicate NoSlash(s: string) { forall i :: 0 <= i < |s| ==> s[i] != '/' }

  predicate AllSlashes(s: string) { forall i :: 0 <= i < |s| ==> s[i] == '/' }

  /** Index of the last separator in `p`, or -1 when there is none. */
  function LastSlash(p: string): (k: int)
    ensures -1 <= k < |p|
    ensures k >= 0 ==> p[k] == '/'
    ensures forall j :: k < j < |p| ==> p[j] != '/'
  {
    if |p| == 0 then -1
    else if p[|p| - 1] == '/' then |p| - 1
    else LastSlash(p[..|p| - 1])
  }

  /** `os.path.join(a, b)`: an absolute `b` replaces `a`; otherwise one
      separator is inserted unless `a` is empty or already ends in one. */
  function Join(a: string, b: string): (r: string)
    ensures |b| <= |r| <= |a| + 1 + |b|
  {
    if |b| > 0 && b[0] == '/' then b
    else if a == "" || a[|a| - 1] == '/' then a + b
    else a + "/" + b
  }

  /** `b` ends the joined path; an absolute `b` replaces `a`; otherwise `a`
      starts it, and exactly one separator stands between a non-empty `a`
      and `b`, added only when `a` does not already end in one. */
  lemma JoinShape(a: string, b: string)
    ensures var r := Join(a, b);
      && r[|r| - |b|..] == b
      && (|b| > 0 && b[0] == '/' ==> r == b)
      && (!(|b| > 0 && b[0] == '/') ==> |a| <= |r| && r[..|a|] == a)
      && (!(|b| > 0 && b[0] == '/') && a != "" ==> |r| > |b| && r[|r| - |b| - 1] == '/')
      && (!(|b| > 0 && b[0] == '/') && (a == "" || a[|a| - 1] == '/') ==> |r| == |a| + |b|)
      && (!(|b| > 0 && b[0] == '/') && a != "" && a[|a| - 1] != '/' ==> r == a + "/" + b)
  {
  }

  /** `os.path.basename(p)`: what follows the last separator. */
  function Basename(p: string): (r: string)
    ensures NoSlash(r)
    ensures |r| <= |p| && p[|p| - |r|..] == r
    ensures |r| < |p| ==> p[|p| - |r| - 1] == '/'
  {
    p[LastSlash(p) + 1..]
  }

  /** `head.rstrip('/')`. */
  function TrimSlashes(s: string): (r: string)
    ensures |r| <= |s| && r == s[..|r|]
    ensures |r| > 0 ==> r[|r| - 1] != '/'
    ensures forall i :: |r| <= i < |s| ==> s[i] == '/'
  {
    if |s| > 0 && s[|s| - 1] == '/' then TrimSlashes(s[..|s| - 1]) else s
  }

  /** `os.path.dirname(p)`: everything up to the last separator, with trailing
      separators removed unless the head is made of separators only. */
  function Dirname(p: string): (r: string)
    ensures r == "" || AllSlashes(r) || r[|r| - 1] != '/'
    ensures |r| <= |p| && p[..|r|] == r
    ensures r == "" <==> LastSlash(p) == -1
    ensures forall i :: |r| <= i <= LastSlash(p) ==> p[i] == '/'
    ensures |r| > 0 && r[|r| - 1] == '/' ==> |r| == LastSlash(p) + 1
    ensures |r| <= LastSlash(p) + 1
  {
    var head := p[..LastSlash(p) + 1];
    if head != "" && !AllSlashes(head) then TrimSlashes(head) else head
  }

  /** The separator position is determined by the contract of `LastSlash`:
      after a prefix that is empty or ends in '/', a slash-free tail moves it
      to the end of the prefix. */
  lemma LastSlashAfterPrefix(x: string, n: string)
    requires NoSlash(n)
    requires x == "" || x[|x| - 1] == '/'
    ensures LastSlash(x + n) == |x| - 1
  {
    var p := x + n;
    assert forall j :: |x| <= j < |p| ==> p[j] == n[j - |x|];
    if x != "" {
      assert p[|x| - 1] == '/';
    }
  }

  /** Joining a slash-free name onto any directory yields a path whose
      basename is that name. */
  lemma JoinBasename(d: string, n: string)
    requires NoSlash(n)
    ensures Basename(Join(d, n)) == n
  {
    var x := if d == "" || d[|d| - 1] == '/' then d else d + "/";
    assert Join(d, n) == x + n;
    LastSlashAfterPrefix(x, n);
    assert (x + n)[|x|..] == n;
  }

  /** Joining a slash-free name onto a directory returned by `dirname` gives
      a path whose `dirname` is that same directory. */
  lemma JoinDirname(p: string, n: string)
    requires NoSlash(n)
    ensures Dirname(Join(Dirname(p), n)) == Dirname(p)
  {
    var d := Dirname(p);
    if d == "" {
      DirnameJoinEmpty(n);
    } else if AllSlashes(d) {
      DirnameJoinSlashes(d, n);
    } else {
      DirnameJoinPlain(d, n);
    }
  }

  lemma DirnameJoinEmpty(n: string)
    requires NoSlash(n)
    ensures Dirname(Join("", n)) == ""
  {
    assert Join("", n) == n;
    LastSlashAfterPrefix("", n);
    assert n[..0] == "";
  }

  lemma DirnameJoinSlashes(d: string, n: string)
    requires d != "" && AllSlashes(d) && NoSlash(n)
    ensures Dirname(Join(d, n)) == d
  {
    assert Join(d, n) == d + n;
    LastSlashAfterPrefix(d, n);
    assert (d + n)[..|d|] == d;
  }

  lemma DirnameJoinPlain(d: string, n: string)
    requires d != "" && !AllSlashes(d) && d[|d| - 1] != '/' && NoSlash(n)
    ensures Dirname(Join(d, n)) == d
  {
    var x := d + "/";
    assert Join(d, n) == x + n;
    LastSlashAfterPrefix(x, n);
    var head := (x + n)[..|x|];
    assert head == x;
    var i :| 0 <= i < |d| && d[i] != '/';
    assert x[i] != '/';
    assert !AllSlashes(head);
    var t := TrimSlashes(x);
    assert x[|d| - 1] != '/' && x[|d|] == '/';
    assert t == x[..|d|] == d;
  }
}

=== FILE: server.dfy ===
/** The web server's game logic: the id a directory is known by, resolving
    an id back to a directory, the record `generate_games_data` writes for
    each game, and the `/launch-game` branch of `do_GET`. */
module Server {

  import opened Base
  import opened Text
  import opened Paths
  import opened Listing

  /** `name.lower().replace(" ", "-")`. */
  function Normalize(name: string): (id: string)
    ensures |id| == |name|
    ensures forall i :: 0 <= i < |name| ==> id[i] == (if name[i] == ' ' then '-' else LowerChar(name[i]))
    ensures !HasUpper(id) && ' ' !in id
  {
    Replace(Lower(name), ' ', '-')
  }

  /** An id is its own normal form: normalising twice changes nothing, and a
      string is an id exactly when it has no upper-case letter and no space. */
  lemma NormalizeIdempotent(name: string)
    ensures Normalize(Normalize(name)) == Normalize(name)
    ensures Normalize(name) == name <==> !HasUpper(name) && ' ' !in name
  {
    if Normalize(name) == name {
      assert !HasUpper(name) && ' ' !in name;
    }
    if !HasUpper(name) && ' ' !in name {
      forall i | 0 <= i < |name| ensures Normalize(name)[i] == name[i] {
        assert name[i] in name;
      }
    }
  }

  /** The name of a game's asset directory, `game_dir.replace(" ", "-")`:
      case is kept, unlike in `Normalize`. */
  function AssetDirName(name: string): string
  {
    Replace(name, ' ', '-')
  }

  /** The asset directory's name lower-cases to the id, and equals it exactly
      when the directory name has no upper-case letter. */
  lemma AssetDirNameVersusId(name: string)
    ensures Lower(AssetDirName(name)) == Normalize(name)
    ensures AssetDirName(name) == Normalize(name) <==> !HasUpper(name)
  {
    if AssetDirName(name) == Normalize(name) {
      forall i | 0 <= i < |name| ensures !IsUpper(name[i]) {
        assert AssetDirName(name)[i] == Normalize(name)[i];
      }
    }
  }

  /** The test of the directory-resolution loop. */
  predicate Matches(e: Entry, id: string)
  {
    Normalize(e.name) == id && e.isDir
  }

  /** The loop over `os.listdir(GAMES_DIR)` that finds `actual_game_dir`:
      the first listed directory whose normalised name is the id. */
  function Resolve(listing: seq<Entry>, id: string): (r: Option<string>)
    ensures r.Some? ==> exists k :: (0 <= k < |listing| && listing[k].name == r.value &&
                                     Matches(listing[k], id) &&
                                     forall j :: 0 <= j < k ==> !Matches(listing[j], id))
    ensures r.None? <==> forall j :: 0 <= j < |listing| ==> !Matches(listing[j], id)
    ensures r.Some? ==> !HasUpper(id) && ' ' !in id
  {
    if |listing| == 0 then None
    else if Matches(listing[0], id) then Some(listing[0].name)
    else
      var r := Resolve(listing[1..], id);
      assert forall j :: 1 <= j < |listing| ==> listing[j] == listing[1..][j - 1];
      assert r.Some? ==> exists k :: (0 <= k < |listing| && listing[k].name == r.value &&
                                      Matches(listing[k], id) &&
                                      forall j :: 0 <= j < k ==> !Matches(listing[j], id)) by {
        if r.Some? {
          var k :| 0 <= k < |listing[1..]| && listing[1..][k].name == r.value &&
            Matches(listing[1..][k], id) && forall j :: 0 <= j < k ==> !Matches(listing[1..][j], id);
          assert listing[k + 1] == listing[1..][k];
        }
      }
      r
  }

  const ThumbnailCandidates: seq<string> := ["app.png", "app.gif", "screenshot.png", "preview.png"]

  /** `f"game-assets/{clean_name}/{img_name}"`, relative to the front-end
      directory. */
  function AssetPath(id: string, file: string): string
  {
    "game-assets/" + id + "/" + file
  }

  function AssetPaths(id: string): seq<string>
  {
    MapSeq(c => AssetPath(id, c), ThumbnailCandidates)
  }

  /** One entry of the JSON array written to games-data.js. */
  datatype GameRecord = GameRecord(
    id: string,
    title: string,
    description: string,
    thumbnail: Option<string>,
    playUrl: string,
    screenshots: seq<string>,
    webReady: bool)

  /** What every record promises its readers (the page script among them). */
  ghost predicate WellFormedRecord(r: GameRecord)
  {
    && r.id == Normalize(r.title)
    && r.playUrl == "game-players/" + r.id + ".html"
    && r.description != ""
    && r.screenshots == (if r.thumbnail.Some? then [r.thumbnail.value] else [])
    && (r.thumbnail.Some? ==> r.thumbnail.value != "")
  }

  /** The filter of `generate_games_data`. */
  predicate IsWebGame(e: Entry)
  {
    e.isDir && e.name != "FRONTEND" && e.name != "__pycache__" && ("main.py" in e.files || "game.py" in e.files)
  }

  /** The record built for one directory; `frontend` holds the paths, relative
      to the front-end directory, that exist there. */
  function RecordOf(frontend: set<string>, e: Entry): (r: GameRecord)
    ensures WellFormedRecord(r)
    ensures r.title == e.name
    ensures Description(e) != "" ==> r.description == Description(e)
    ensures Description(e) == "" ==> r.description == "Play " + e.name + " right in your browser!"
    ensures r.thumbnail.Some? ==> FirstIn(AssetPaths(r.id), frontend, r.thumbnail.value)
    ensures r.thumbnail.None? <==> NoneIn(AssetPaths(r.id), frontend)
    ensures r.webReady <==> Join(Join("pygbag_builds", r.id), "index.html") in frontend
  {
    var id := Normalize(e.name);
    var thumbnail := FirstExisting(AssetPaths(id), frontend);
    assert thumbnail.Some? ==> thumbnail.value != "" by {
      if thumbnail.Some? {
        var k :| 0 <= k < |AssetPaths(id)| && AssetPaths(id)[k] == thumbnail.value && thumbnail.value in frontend &&
          forall j :: 0 <= j < k ==> AssetPaths(id)[j] !in frontend;
        assert |AssetPaths(id)[k]| > 0;
      }
    }
    var description := Description(e);
    GameRecord(
      id,
      e.name,
      if description == "" then "Play " + e.name + " right in your browser!" else description,
      thumbnail,
      "game-players/" + id + ".html",
      if thumbnail.Some? then [thumbnail.value] else [],
      Join(Join("pygbag_builds", id), "index.html") in frontend)
  }

  /** `generate_games_data()`: the records, in listing order. */
  function GenerateGamesData(listing: seq<Entry>, frontend: set<string>): (r: seq<GameRecord>)
    ensures |r| <= |listing|
    ensures r == [] <==> forall e :: e in listing ==> !IsWebGame(e)
  {
    var kept := Filter(IsWebGame, listing);
    assert kept != [] ==> kept[0] in kept;
    MapSeq(e => RecordOf(frontend, e), kept)
  }

  /** There is a record exactly for each listed directory that passes the
      filter, and it is built from that directory. */
  lemma GamesDataMembers(listing: seq<Entry>, frontend: set<string>, r: GameRecord)
    ensures r in GenerateGamesData(listing, frontend) <==>
      exists e :: e in listing && IsWebGame(e) && r == RecordOf(frontend, e)
  {
    MapSeqMembers(e => RecordOf(frontend, e), Filter(IsWebGame, listing), r);
  }

  /** Listing order is kept: one more listed entry adds its record, if any,
      at the end. */
  lemma GamesDataInListingOrder(listing: seq<Entry>, frontend: set<string>, e: Entry)
    ensures GenerateGamesData(listing + [e], frontend) ==
      GenerateGamesData(listing, frontend) + (if IsWebGame(e) then [RecordOf(frontend, e)] else [])
  {
    FilterMapAppend(IsWebGame, e => RecordOf(frontend, e), listing, e);
  }

  /** Every record is well formed. */
  lemma GamesDataWellFormed(listing: seq<Entry>, frontend: set<string>, r: GameRecord)
    requires r in GenerateGamesData(listing, frontend)
    ensures WellFormedRecord(r)
  {
    GamesDataMembers(listing, frontend, r);
  }

  /** The body of the `/launch-game` response and where the others go:
      `Launched` is the 200 page that redirects to `location`; `ErrorPage` is
      `serve_error_page`, which answers 404; `StaticFile` is the fall-through
      to `SimpleHTTPRequestHandler.do_GET`; `OtherRoute` is any path this
      branch does not handle. */
  datatype Response = Launched(location: string) | ErrorPage(message: string) | StaticFile | OtherRoute

  /** The status line this branch sends itself; a static file's status is
      decided by the base handler. */
  function Status(r: Response): Option<int>
  {
    match r
    case Launched(_) => Some(200)
    case ErrorPage(_) => Some(404)
    case _ => None
  }

  /** The response and the argument vectors passed to `subprocess.Popen`. */
  datatype LaunchReply = LaunchReply(response: Response, spawned: seq<seq<string>>)

  /** `query['game'][0]` when `'game' in query`: the first non-empty value of
      the `game` parameter, since `parse_qs` drops blank values. The query is
      the decoded list of name/value pairs. */
  function GameParam(query: seq<(string, string)>): (r: Option<string>)
    ensures r.Some? ==> (r.value != "" &&
      exists k :: (0 <= k < |query| && query[k] == ("game", r.value) &&
                   forall j :: 0 <= j < k ==> query[j].0 != "game" || query[j].1 == ""))
    ensures r.None? <==> forall k :: 0 <= k < |query| ==> query[k].0 != "game" || query[k].1 == ""
  {
    if |query| == 0 then None
    else if query[0].0 == "game" && query[0].1 != "" then Some(query[0].1)
    else
      var r := GameParam(query[1..]);
      assert forall k :: 1 <= k < |query| ==> query[k] == query[1..][k - 1];
      r
  }

  /** Parameters after the first usable `game` value never change it; with
      none, the value comes from the parameters that follow. */
  lemma {:induction false} GameParamAppend(query: seq<(string, string)>, extra: seq<(string, string)>)
    ensures GameParam(query).Some? ==> GameParam(query + extra) == GameParam(query)
    ensures GameParam(query).None? ==> GameParam(query + extra) == GameParam(extra)
  {
    if |query| > 0 {
      assert (query + extra)[0] == query[0];
      assert (query + extra)[1..] == query[1..] + extra;
      GameParamAppend(query[1..], extra);
    } else {
      assert query + extra == extra;
    }
  }

  /** The `/launch-game` branch of `do_GET`. `python` is `sys.executable`,
      `gamesDir` is `GAMES_DIR`, `spawnError` is the message of the exception
      `Popen` raises, if it raises, and `replyError` that of the exception
      raised while the 200 redirect is being sent after a successful
      `Popen`, if one is: the same `try` covers both, so then the game runs
      and the error page is served all the same. */
  function LaunchRoute(path: string, query: seq<(string, string)>, listing: seq<Entry>,
                       python: string, gamesDir: string,
                       spawnError: Option<string>, replyError: Option<string>): (r: LaunchReply)
    ensures |r.spawned| <= 1
    ensures Status(r.response) == Some(200) <==> r.response.Launched?
    ensures r.response.Launched? <==> r.spawned != [] && replyError.None?
    ensures StartsWith(path, "/launch-game") && GameParam(query).Some? && !r.response.Launched? ==>
      Status(r.response) == Some(404)
    ensures !StartsWith(path, "/launch-game") ==> r == LaunchReply(OtherRoute, [])
    ensures StartsWith(path, "/launch-game") && GameParam(query).None? ==> r == LaunchReply(StaticFile, [])
    ensures r.spawned != [] <==>
      StartsWith(path, "/launch-game") && GameParam(query).Some? &&
      Resolve(listing, GameParam(query).value).Some? && spawnError.None?
    ensures r.spawned != [] ==>
      r.spawned[0] == [python, Join(gamesDir, "game_launcher.py"), "--launch", Resolve(listing, GameParam(query).value).value]
    ensures r.response.Launched? ==> r.response == Launched("/game-launched?game=" + GameParam(query).value)
    ensures r.spawned != [] && replyError.Some? ==>
      r.response == ErrorPage("Error launching game: " + replyError.value)
    ensures StartsWith(path, "/launch-game") && GameParam(query).Some? && Resolve(listing, GameParam(query).value).None? ==>
      r == LaunchReply(ErrorPage("Game not found: " + GameParam(query).value), [])
    ensures (StartsWith(path, "/launch-game") && GameParam(query).Some? && Resolve(listing, GameParam(query).value).Some? &&
             spawnError.Some?) ==> r == LaunchReply(ErrorPage("Error launching game: " + spawnError.value), [])
  {
    if !StartsWith(path, "/launch-game") then LaunchReply(OtherRoute, [])
    else match GameParam(query)
      case None => LaunchReply(StaticFile, [])
      case Some(id) =>
        match Resolve(listing, id)
        case None => LaunchReply(ErrorPage("Game not found: " + id), [])
        case Some(dir) =>
          match spawnError
          case Some(err) => LaunchReply(ErrorPage("Error launching game: " + err), [])
          case None =>
            var argv := [python, Join(gamesDir, "game_launcher.py"), "--launch", dir];
            match replyError
            case Some(err) => LaunchReply(ErrorPage("Error launching game: " + err), [argv])
            case None => LaunchReply(Launched("/game-launched?game=" + id), [argv])
  }

  /** The redirect is only ever sent for a spawned process, a spawned
      process without the redirect means sending it failed, and the
      directory handed to `--launch` is a listed directory whose id is the
      requested one: it is never built from the request. */
  lemma LaunchSpawnsOnlyListedDirs(path: string, query: seq<(string, string)>, listing: seq<Entry>,
                                   python: string, gamesDir: string,
                                   spawnError: Option<string>, replyError: Option<string>)
    ensures var r := LaunchRoute(path, query, listing, python, gamesDir, spawnError, replyError);
      (r.response.Launched? ==> r.spawned != []) &&
      (r.spawned != [] && !r.response.Launched? ==> replyError.Some?) &&
      (r.spawned != [] ==> exists e :: e in listing && e.isDir && e.name == r.spawned[0][3] &&
                                       Normalize(e.name) == GameParam(query).value)
  {
    var r := LaunchRoute(path, query, listing, python, gamesDir, spawnError, replyError);
    if r.spawned != [] {
      var id := GameParam(query).value;
      var k :| 0 <= k < |listing| && listing[k].name == Resolve(listing, id).value && Matches(listing[k], id) &&
        forall j :: 0 <= j < k ==> !Matches(listing[j], id);
      assert listing[k] in listing;
    }
  }
}

=== FILE: text.dfy ===
/** Character-level string operations the launcher and the server rely on:
    lower-casing, single-character replacement, whitespace stripping and the
    ordering Python uses to sort strings. Only the ASCII range is interpreted;
    every other character is left alone by `Lower` and is not whitespace. */
module Text {

  predicate IsUpper(c: char) { 'A' <= c <= 'Z' }

  /** Python's `str.lower` on one ASCII character. */
  function LowerChar(c: char): (r: char)
    ensures !IsUpper(r)
    ensures r != c <==> IsUpper(c)
    ensures IsUpper(c) ==> r as int - c as int == 32
  {
    if IsUpper(c) then (c as int + 32) as char else c
  }

  /** `s.lower()`: `LowerChar` at every position. What lower-casing means is
      stated by `LowerChar`, `LowerIdempotent` and `LowerFixesExactly`. */
  function Lower(s: string): (r: string)
    ensures |r| == |s|
    ensures forall i :: 0 <= i < |s| ==> r[i] == LowerChar(s[i])
  {
    seq(|s|, i requires 0 <= i < |s| => LowerChar(s[i]))
  }

  /** `s.replace(from, to)` for single characters: every occurrence is
      replaced and every other character kept, position by position. */
  function Replace(s: string, from: char, to: char): (r: string)
    ensures |r| == |s|
    ensures forall i :: 0 <= i < |s| ==> r[i] == (if s[i] == from then to else s[i])
  {
    seq(|s|, i requires 0 <= i < |s| => if s[i] == from then to else s[i])
  }

  lemma LowerIdempotent(s: string)
    ensures Lower(Lower(s)) == Lower(s)
  {
  }

  predicate HasUpper(s: string) { exists i :: 0 <= i < |s| && IsUpper(s[i]) }

  /** Lower-casing changes a string exactly when it holds an upper-case letter. */
  lemma LowerFixesExactly(s: string)
    ensures Lower(s) == s <==> !HasUpper(s)
  {
    if Lower(s) == s {
      forall i | 0 <= i < |s| ensures !IsUpper(s[i]) {
        assert Lower(s)[i] == s[i];
      }
    }
  }

  /** Whitespace for Python's argument-less `str.strip()`, within ASCII. */
  predicate IsSpace(c: char)
  {
    c == ' ' || 9 <= c as int <= 13 || 28 <= c as int <= 31
  }

  function TrimStart(s: string): (r: string)
    ensures |r| <= |s| && r == s[|s| - |r|..]
    ensures |r| > 0 ==> !IsSpace(r[0])
    ensures forall i :: 0 <= i < |s| - |r| ==> IsSpace(s[i])
  {
    if |s| > 0 && IsSpace(s[0]) then TrimStart(s[1..]) else s
  }

  function TrimEnd(s: string): (r: string)
    ensures |r| <= |s| && r == s[..|r|]
    ensures |r| > 0 ==> !IsSpace(r[|r| - 1])
    ensures forall i :: |r| <= i < |s| ==> IsSpace(s[i])
  {
    if |s| > 0 && IsSpace(s[|s| - 1]) then TrimEnd(s[..|s| - 1]) else s
  }

  /** `str.strip()`: leading and trailing whitespace removed, nothing else. */
  function Strip(s: string): (r: string)
    ensures |r| <= |s|
    ensures |r| > 0 ==> !IsSpace(r[0]) && !IsSpace(r[|r| - 1])
    ensures r == "" <==> forall i :: 0 <= i < |s| ==> IsSpace(s[i])
    ensures exists i, j :: SpaceAround(s, i, j) && r == s[i..j]
  {
    StripIsSlice(s);
    TrimEnd(TrimStart(s))
  }

  /** `s[i..j]` is `s` with only whitespace cut off before and after it. */
  predicate SpaceAround(s: string, i: int, j: int)
  {
    0 <= i <= j <= |s| &&
    (forall k :: 0 <= k < i ==> IsSpace(s[k])) &&
    (forall k :: j <= k < |s| ==> IsSpace(s[k]))
  }

  lemma StripIsSlice(s: string)
    ensures exists i, j :: SpaceAround(s, i, j) && TrimEnd(TrimStart(s)) == s[i..j]
  {
    var t := TrimStart(s);
    var r := TrimEnd(t);
    var i := |s| - |t|;
    var j := i + |r|;
    assert r == s[i..j];
    forall k | j <= k < |s| ensures IsSpace(s[k]) {
      assert s[k] == t[k - i];
    }
    assert SpaceAround(s, i, j);
  }

  predicate StartsWith(s: string, prefix: string)
  {
    |prefix| <= |s| && s[..|prefix|] == prefix
  }

  /** Python's `a < b` on `str`: lexicographic by code point, and a proper
      prefix comes before every extension of it. */
  predicate Below(a: string, b: string)
    decreases |a|
  {
    if |a| == 0 then |b| > 0
    else if |b| == 0 then false
    else if a[0] != b[0] then a[0] < b[0]
    else Below(a[1..], b[1..])
  }

  predicate AtMost(a: string, b: string) { a == b || Below(a, b) }

  lemma BelowIrreflexive(a: string)
    ensures !Below(a, a)
    decreases |a|
  {
    if |a| > 0 {
      BelowIrreflexive(a[1..]);
    }
  }

  lemma {:induction false} BelowTotal(a: string, b: string)
    ensures a == b || Below(a, b) || Below(b, a)
    decreases |a|
  {
    if |a| > 0 && |b| > 0 && a[0] == b[0] {
      BelowTotal(a[1..], b[1..]);
      if a[1..] == b[1..] {
        assert a == [a[0]] + a[1..] && b == [b[0]] + b[1..];
      }
    }
  }

  lemma {:induction false} BelowTransitive(a: string, b: string, c: string)
    requires Below(a, b) && Below(b, c)
    ensures Below(a, c)
    decreases |a|
  {
    if |a| > 0 && a[0] == b[0] && b[0] == c[0] {
      BelowTransitive(a[1..], b[1..], c[1..]);
    }
  }

  lemma AtMostTransitive(a: string, b: string, c: string)
    requires AtMost(a, b) && AtMost(b, c)
    ensures AtMost(a, c)
  {
    if Below(a, b) && Below(b, c) {
      BelowTransitive(a, b, c);
    }
  }

  /** The order is strict: a string below another is not at most it. */
  lemma {:induction false} BelowAsymmetric(a: string, b: string)
    ensures Below(a, b) ==> !AtMost(b, a)
    decreases |a|
  {
    BelowIrreflexive(a);
    if |a| > 0 && |b| > 0 && a[0] == b[0] {
      BelowAsymmetric(a[1..], b[1..]);
    }
  }
}

=== FILE: wrapper.dfy ===
/** The generated supervisor program (`_wrapper_<game file>`): a loop that,
    once per tick, drains pygame's events, asks the child game process
    whether it has exited, and counts down the help-message timer; after the
    loop it terminates the child if the child is still alive. The
    60-ticks-a-second pacing is not modelled; a tick is its inputs. */
module Wrapper {

  import opened Base

  /** Ticks the help message is meant to stay up: three seconds at 60 ticks
      a second. */
  const MessageTicks: int := 180

  datatype Key = F1 | F10 | OtherKey

  datatype Event = Quit | KeyDown(key: Key) | OtherEvent

  /** What `game_process.poll()` returns: `None` while the child runs, its
      exit status once it has exited. */
  datatype Poll = Alive | Exited(status: int)

  /** `running`, `show_message_timer` and `message_shown`. */
  datatype Monitor = Monitor(running: bool, timer: int, shown: bool)

  /** The state when the loop is entered. */
  const Start := Monitor(true, MessageTicks, false)

  /** One tick's inputs: the events `pygame.event.get()` returned and what
      `poll()` reported. */
  datatype TickInput = TickInput(events: seq<Event>, poll: Poll)

  /** The state after a tick and whether `show_return_message()` ran in it. */
  datatype TickResult = TickResult(next: Monitor, drew: bool)

  predicate Stops(e: Event) { e == Quit || e == KeyDown(F10) }

  predicate AnyStop(es: seq<Event>) { exists i :: 0 <= i < |es| && Stops(es[i]) }

  predicate AnyF1(es: seq<Event>) { exists i :: 0 <= i < |es| && es[i] == KeyDown(F1) }

  /** The message timer never exceeds the length F1 sets it to. */
  predicate TimerInRange(m: Monitor) { 0 <= m.timer <= MessageTicks }

  /** The body of the `for event in pygame.event.get()` loop. */
  function HandleEvent(m: Monitor, e: Event): Monitor
  {
    match e
    case Quit => m.(running := false)
    case KeyDown(F10) => m.(running := false)
    case KeyDown(F1) => m.(shown := true, timer := MessageTicks)
    case _ => m
  }

  /** The event loop: QUIT or F10 clears `running` and nothing else does; F1
      resets the timer to exactly 180, whatever it was, and marks the message
      as shown; without F1 the timer and the flag are untouched. */
  function HandleEvents(m: Monitor, es: seq<Event>): (r: Monitor)
    ensures r.running == (m.running && !AnyStop(es))
    ensures AnyF1(es) ==> r.timer == MessageTicks && r.shown
    ensures !AnyF1(es) ==> r.timer == m.timer && r.shown == m.shown
    decreases |es|
  {
    if |es| == 0 then m
    else
      var r := HandleEvents(HandleEvent(m, es[0]), es[1..]);
      assert AnyStop(es) <==> Stops(es[0]) || AnyStop(es[1..]) by {
        if AnyStop(es) {
          var i :| 0 <= i < |es| && Stops(es[i]);
          if i > 0 { assert es[1..][i - 1] == es[i]; }
        }
      }
      assert AnyF1(es) <==> es[0] == KeyDown(F1) || AnyF1(es[1..]) by {
        if AnyF1(es) {
          var i :| 0 <= i < |es| && es[i] == KeyDown(F1);
          if i > 0 { assert es[1..][i - 1] == es[i]; }
        }
      }
      r
  }

  /** One pass of `while running`. */
  function Tick(m: Monitor, input: TickInput): (r: TickResult)
    requires m.timer >= 0
    ensures r.next.timer >= 0
    ensures !input.poll.Alive? ==> !r.next.running
    ensures r.next.running <==> m.running && !AnyStop(input.events) && input.poll.Alive?
    ensures r.drew ==> !m.shown && !AnyF1(input.events)
    ensures r.drew <==> !AnyF1(input.events) && m.timer > 0 && !m.shown
    ensures r.drew || m.shown || m.timer > 0 || AnyF1(input.events) ==> r.next.shown
    ensures r.next.timer ==
      (var t := if AnyF1(input.events) then MessageTicks else m.timer; if t > 0 then t - 1 else 0)
  {
    AfterEvents(HandleEvents(m, input.events), input.poll)
  }

  /** The rest of a tick once the events are handled: the `poll()` check and
      the message block. */
  function AfterEvents(m1: Monitor, poll: Poll): (r: TickResult)
    requires m1.timer >= 0
    ensures r.drew <==> m1.timer > 0 && !m1.shown
  {
    var m2 := if !poll.Alive? then m1.(running := false) else m1;
    if m2.timer > 0 then
      var drew := !m2.shown;
      TickResult(m2.(shown := true, timer := m2.timer - 1), drew)
    else
      TickResult(m2, false)
  }

  /** Finding, as written: F1 is labelled "show help", but because it sets
      `message_shown` the tick in which it is pressed never draws the
      message, from any state. */
  lemma HelpKeyNeverDraws(m: Monitor, input: TickInput)
    requires m.timer >= 0 && AnyF1(input.events)
    ensures !Tick(m, input).drew
  {
  }

  /** Finding, corrected: F1 clears `message_shown` instead of setting it, so
      the message block draws the overlay again. */
  function TickAsIntended(m: Monitor, input: TickInput): (r: TickResult)
    requires m.timer >= 0
    ensures r.next.running <==> m.running && !AnyStop(input.events) && input.poll.Alive?
    ensures r.drew <==> AnyF1(input.events) || (m.timer > 0 && !m.shown)
  {
    var m1 := HandleEvents(m, input.events);
    AfterEvents(if AnyF1(input.events) then m1.(shown := false) else m1, input.poll)
  }

  /** The loop run over a finite sequence of tick inputs: it stops at the
      first tick that leaves `running` false, or when the inputs run out. */
  datatype Run = Run(final: Monitor, ticks: nat, draws: nat)

  function RunLoop(m: Monitor, inputs: seq<TickInput>): (r: Run)
    requires m.timer >= 0
    ensures r.ticks <= |inputs|
    ensures r.final.timer >= 0
    ensures TimerInRange(m) ==> TimerInRange(r.final)
    decreases |inputs|
  {
    if !m.running || |inputs| == 0 then Run(m, 0, 0)
    else
      var t := Tick(m, inputs[0]);
      var rest := RunLoop(t.next, inputs[1..]);
      Run(rest.final, rest.ticks + 1, rest.draws + (if t.drew then 1 else 0))
  }

  /** The message overlay is drawn at most once per session, and only in the
      first tick: after any tick `message_shown` is true and nothing makes it
      false again, so F1 never redraws it. From the start state it is drawn
      exactly when there is a first tick and it holds no F1. */
  lemma {:induction false} DrawnAtMostOnce(m: Monitor, inputs: seq<TickInput>)
    requires m.timer >= 0
    ensures RunLoop(m, inputs).draws <= 1
    ensures m.shown ==> RunLoop(m, inputs).draws == 0
    ensures m == Start ==>
      (RunLoop(m, inputs).draws == 1 <==> |inputs| > 0 && !AnyF1(inputs[0].events))
    decreases |inputs|
  {
    if m.running && |inputs| > 0 {
      var t := Tick(m, inputs[0]);
      if t.drew || m.shown {
        NoDrawOnceShown(t.next, inputs[1..]);
      } else {
        DrawnAtMostOnce(t.next, inputs[1..]);
      }
    }
  }

  lemma {:induction false} NoDrawOnceShown(m: Monitor, inputs: seq<TickInput>)
    requires m.timer >= 0 && m.shown
    ensures RunLoop(m, inputs).draws == 0
    decreases |inputs|
  {
    if m.running && |inputs| > 0 {
      NoDrawOnceShown(Tick(m, inputs[0]).next, inputs[1..]);
    }
  }

  predicate NoF1(inputs: seq<TickInput>)
  {
    forall k :: 0 <= k < |inputs| ==> !AnyF1(inputs[k].events)
  }

  /** Without F1 the timer only counts down, one a tick, and stops at 0: after
      the loop it is max(timer - ticks run, 0). */
  lemma {:induction false} TimerCountsDown(m: Monitor, inputs: seq<TickInput>)
    requires m.timer >= 0 && NoF1(inputs)
    ensures RunLoop(m, inputs).final.timer == Max(m.timer - RunLoop(m, inputs).ticks, 0)
    decreases |inputs|
  {
    if m.running && |inputs| > 0 {
      TimerCountsDown(Tick(m, inputs[0]).next, inputs[1..]);
    }
  }

  predicate Quiet(inputs: seq<TickInput>)
  {
    forall k :: 0 <= k < |inputs| ==> !AnyStop(inputs[k].events) && inputs[k].poll.Alive?
  }

  /** With a live child and no QUIT or F10 the loop keeps running through
      every tick it is given. */
  lemma {:induction false} KeepsRunning(m: Monitor, inputs: seq<TickInput>)
    requires m.timer >= 0 && m.running && Quiet(inputs)
    ensures RunLoop(m, inputs).final.running
    ensures RunLoop(m, inputs).ticks == |inputs|
    decreases |inputs|
  {
    if |inputs| > 0 {
      KeepsRunning(Tick(m, inputs[0]).next, inputs[1..]);
    }
  }

  /** So 180 quiet ticks without F1 from the start leave the loop running with
      the timer at 0. */
  lemma MessageTimerExpires(inputs: seq<TickInput>)
    requires |inputs| >= MessageTicks && Quiet(inputs) && NoF1(inputs)
    ensures RunLoop(Start, inputs).final.running
    ensures RunLoop(Start, inputs).final.timer == 0
  {
    KeepsRunning(Start, inputs);
    TimerCountsDown(Start, inputs);
  }

  /** The tick in which a QUIT, an F10 or an exited child is seen is the
      last one. */
  lemma {:induction false} StopsAtFirstStopTick(m: Monitor, inputs: seq<TickInput>, k: nat)
    requires m.timer >= 0 && m.running
    requires k < |inputs|
    requires forall j :: 0 <= j < k ==> !AnyStop(inputs[j].events) && inputs[j].poll.Alive?
    requires AnyStop(inputs[k].events) || !inputs[k].poll.Alive?
    ensures RunLoop(m, inputs).ticks == k + 1
    ensures !RunLoop(m, inputs).final.running
    decreases k
  {
    var t := Tick(m, inputs[0]);
    if k > 0 {
      assert forall j :: 0 <= j < k - 1 ==> inputs[1..][j] == inputs[j + 1];
      StopsAtFirstStopTick(t.next, inputs[1..], k - 1);
    }
  }

  /** The whole session after the child was started: the loop over the tick
      inputs, then the final `poll()`. `ended` is false when the inputs ran
      out with the loop still running. */
  datatype Session = Session(run: Run, ended: bool, terminateSent: bool)

  function Supervise(inputs: seq<TickInput>, finalPoll: Poll): (s: Session)
    ensures s.terminateSent <==> s.ended && finalPoll.Alive?
    ensures s.ended <==> !s.run.final.running
    ensures s.run.draws <= 1
  {
    var run := RunLoop(Start, inputs);
    DrawnAtMostOnce(Start, inputs);
    var ended := !run.final.running;
    Session(run, ended, ended && finalPoll.Alive?)
  }
}
